=== FILE: README.md ===
# Allowance Aid lending site — a Dafny model of its core

This project models the browser-side core of the Allowance Aid lending site.
The site is a React single-page application that keeps all of its data in
the browser's `localStorage` and `sessionStorage`. The model covers four parts.

- **The access gate** (`App.tsx`, `MaintenancePage.tsx`):
  - every status check reads the URL fragment and the stored maintenance flag;
  - the admin panel wins whenever the fragment contains `secure-admin-login`;
  - otherwise the maintenance screen shows exactly when the flag reads `"true"`;
  - otherwise the public site shows, with its four sub-pages;
  - the maintenance screen polls the flag and leaves for a cache-busting URL once the flag is off;
  - its dot indicator cycles with period four.
- **The loan application form** (`LoanApplicationForm.tsx`):
  - the phone pattern `^09\d{9}$` and the file check;
  - field edits with their live error map, and the step-1 and submit-time error maps;
  - the record that is put in front of the stored `loanApplications` list.
- **The admin panel and the payment form** (`AdminPanel.tsx`, `PaymentForm.tsx`):
  - the hard-coded login and its per-tab session flag;
  - the repayment tiers (5 / 7 / 10 percent, with gaps at (299, 300) and (599, 600));
  - status changes and the notices they trigger, deletion, and the status filter;
  - the dashboard figures and the buttons each row offers;
  - the payment form's matching by trimmed, lower-cased name and trimmed phone, which marks matching Pending or Approved records Paid;
  - the panel's write-back. The panel reads `loanApplications` only when it is opened or logged in. Every status change or delete writes the panel's whole list back, so an application submitted, or a payment recorded, while the panel is open is lost at its next action. The payment form's sync message goes to a broadcast channel that nothing in the site listens to.
- **The mock document store** (`firebaseConfig.ts`):
  - collection keys; `addDoc`, `updateDoc` and `deleteDoc` over `localStorage`;
  - `orderBy` and `onSnapshot`, with the JavaScript comparator run as a stable insertion sort;
  - the listeners, which run for writes to their own key until unsubscribed.

The modules are:

| module | file | role |
|---|---|---|
| `Wrappers` | `wrappers.dfy` | the `Option` type |
| `Text` | `text.dfy` | JavaScript string operations: `includes`, ASCII `toLowerCase`, `trim`, string `<` |
| `Numeric` | `numeric.dfy` | `Date.now().toString()`, and `parseFloat` and `Number` over a digits-and-fraction grammar |
| `Seqs` | `seqs.dfy` | `Array.prototype.filter` and counting |
| `Records` | `records.dfy` | the shared application record |
| `AccessGate` | `gate.dfy` | `App.tsx` |
| `Recovery` | `recovery.dfy` | `MaintenancePage.tsx` |
| `LoanForm` | `loanform.dfy` | `LoanApplicationForm.tsx` |
| `Admin` | `admin.dfy` | `AdminPanel.tsx` |
| `Payment` | `payment.dfy` | `PaymentForm.tsx` |
| `Documents` | `documents.dfy` | the `onSnapshot` ordering |
| `DocStore` | `docstore.dfy` | the rest of `firebaseConfig.ts` |
| `Workflow` | `workflow.dfy` | how the three components meet over the shared list |

The world outside the code is modelled as follows.

- Browser state arrives as parameters: the fragment, storage contents and session values.
- The clock arrives as parameters: `now`, and the ISO date text.
- Generated ids arrive as parameters.
- Side effects are returned as values: navigations, opened windows and broadcasts.
- Storage that does not parse as JSON is the `Malformed` case.
- The `loanApplications` entry has two views:
  - `Records.StoredApps` is how the form, the panel and the payment form read it;
  - `DocStore.Raw` is how the document store reads any key;
  - `Absent` corresponds to a key missing from `DocStore.Storage`, which also covers the empty entry;
  - both views have a `Malformed` case;
  - `Apps(l)` corresponds to `Json(docs)`, with each document read as a record.
  - The types stay separate because the components work on typed records, while the store works on string-valued documents.

## Model

| member | source | states |
|---|---|---|
| AccessGate.CheckSystemStatus | App.tsx:27-53 | The check never sets both the admin flag and the maintenance flag. |
| AccessGate.AdminImmunity | App.tsx:28-38 | A fragment that contains the admin marker selects the admin panel and clears maintenance, whatever the flag says. |
| AccessGate.DirtyHashIsAdmin | App.tsx:29-31 | Any text before or after the marker in the fragment still selects the admin panel. |
| AccessGate.DecisionTable | App.tsx:27-53 | The full decision table. It is admin exactly when the marker occurs somewhere in the fragment, and maintenance exactly when it does not and the flag is the text "true". |
| AccessGate.FailOpen | App.tsx:45-52 | A missing flag, or any flag text other than "true", gives the public site unless the fragment asks for the admin panel. |
| AccessGate.OnTrigger | App.tsx:55-75 | A live trigger sets the guard to the check's result, and a dead one leaves it alone. No trigger changes the sub-page. |
| AccessGate.TriggersAgree | App.tsx:56-75 | The mount run, the `hashchange` listener and the one-second interval reach the same guard on the same snapshot. |
| AccessGate.Idempotent | App.tsx:27-53 | Re-running the check on an unchanged snapshot does not change the guard. |
| AccessGate.UnmountSilences | App.tsx:65-67 | After unmount, no trigger other than a new mount changes the guard. |
| AccessGate.GuardExclusive | App.tsx:33-52 | From the initial state, after any history of triggers, admin and maintenance are never both on. |
| AccessGate.NormalPageChoice | App.tsx:109-117 | A named sub-page is shown exactly for "terms", "howItWorks", "application" and "payment". Any other view is the home page, and never the admin panel or the maintenance screen. |
| AccessGate.SubPageBack | App.tsx:110-116 | A sub-page's back button keeps the guard and, on the public site, renders the home page. |
| AccessGate.AdminBack | App.tsx:92-97 | Leaving the admin panel clears the fragment of the marker, keeps the flag, resets the sub-page and keeps the guard. |
| AccessGate.AdminBackThenCheck | App.tsx:92-104 | After leaving the admin panel, the next check renders the maintenance screen exactly when the flag is on, and the home page otherwise. |
| AccessGate.HashOf | App.tsx:30 | The fragment starts at the URL's first '#' and runs to the end. It is empty when the URL has no '#' or when that '#' is the last character. |
| AccessGate.RecoveryLandsOnHome | components/MaintenancePage.tsx:19-22 | The recovery URL has no fragment. A fresh load of it shows the home page if the flag still reads off, and the maintenance screen if the flag was switched back on. |
| AccessGate.Render | App.tsx:88-117 | The admin panel shows exactly when the admin flag is set. The maintenance screen shows exactly when only the maintenance flag is set. With neither flag set, the public sub-page for the current view shows. |
| AccessGate.RefreshDecidesAfresh | App.tsx:27-104 | A reload shows the admin panel when the fragment has the marker. Otherwise it shows the maintenance screen while the flag reads "true", and the home page when it does not. The view restarts at "hero", whatever was shown before. |
| Recovery.RecoveryUrl | components/MaintenancePage.tsx:21 | The redirect URL carries the poll time as its cache token and has no fragment. |
| Recovery.RecoveryUrlsDistinct | components/MaintenancePage.tsx:20-21 | Polls at different times leave for different URLs. |
| Recovery.RecoveryPoll | components/MaintenancePage.tsx:15-23 | A poll does nothing exactly when the flag reads "true". Otherwise it navigates to a URL stamped with the poll time. |
| Recovery.NextDots | components/MaintenancePage.tsx:31-36 | A tick adds a dot below three dots and empties the indicator at three. A valid indicator stays valid. |
| Recovery.DotsCycle | components/MaintenancePage.tsx:33 | Four ticks bring any valid indicator back to itself. |
| Recovery.Handle | components/MaintenancePage.tsx:14-36 | An unmounted page ignores every event. A mounted page polls as `RecoveryPoll` does and keeps its state. A dots tick advances the indicator by `NextDots` with no effect. The refresh button reloads and keeps the state. Unmount stops the page with no effect. |
| Recovery.EveryOffPollNavigates | components/MaintenancePage.tsx:19-22 | While mounted, every poll that reads the flag off navigates, every time: there is no one-shot latch. |
| Recovery.UnmountedIsSilent | components/MaintenancePage.tsx:27 | Once unmounted, the page produces no effect for any later events. |
| LoanForm.ValidatePhoneIff | components/LoanApplicationForm.tsx:102-105 | A number is accepted exactly when it is eleven characters: "09" followed by nine digits. |
| LoanForm.ValidateFileIff | components/LoanApplicationForm.tsx:107-118 | A file is accepted exactly when it is JPEG, PNG or PDF and at most 5 MiB. A bad type is reported before size, and 5 MiB + 1 byte is too large. |
| LoanForm.WithText | components/LoanApplicationForm.tsx:122 | Setting one text field changes that field only. |
| LoanForm.ChangeErrors | components/LoanApplicationForm.tsx:124-144 | The phone and wallet fields get the phone message exactly when they are non-empty and invalid, and are cleared otherwise. Another field's error is cleared only when it was set. Other fields' errors stay. |
| LoanForm.HandleChange | components/LoanApplicationForm.tsx:120-145 | Only the named field and its error change. The files, signature, step and submission flag stay. |
| LoanForm.HandleFileChange | components/LoanApplicationForm.tsx:147-166 | An empty selection changes nothing. A rejected file empties the field and records the check's message. An accepted file is stored and its error cleared. Other fields, the signature, the other errors (keys and texts), the step and the submission flag stay. |
| LoanForm.FinishSignature | components/LoanApplicationForm.tsx:78-91 | The drawing is stored. The signature error is dropped only when one was set, and every other error keeps its text. The text fields, files, step and submitted flag are unchanged. |
| LoanForm.ClearSignature | components/LoanApplicationForm.tsx:93-100 | The signature is emptied. The errors, text fields, files, step and submitted flag are unchanged. |
| LoanForm.Step1Errors | components/LoanApplicationForm.tsx:170-180 | There is an error entry exactly for each missing personal field or invalid phone, with that field's message. The map is empty exactly when step 1 is complete. The phone message tells "required" apart from "invalid". |
| LoanForm.NextStep | components/LoanApplicationForm.tsx:168-188 | A complete step 1 advances the step. An incomplete one stays and shows exactly the step-1 errors. |
| LoanForm.PrevStep | components/LoanApplicationForm.tsx:190 | The step goes back by one, and the data and errors are kept. |
| LoanForm.Step2Errors | components/LoanApplicationForm.tsx:195-211 | There is an error entry exactly for each missing loan detail, file or signature, with that field's message. The wallet counts only for GCash or Maya, and its message tells "required" apart from "invalid". The map is empty exactly when the form is complete. |
| LoanForm.NewApplication | components/LoanApplicationForm.tsx:221-232 | The record is Pending, its id is the clock reading in decimal, and its date is the clock's date. It carries every text field of the form and the signature. Each file field holds the file's name, or "Not attached" when there is none. |
| LoanForm.Prepend | components/LoanApplicationForm.tsx:234-239 | A missing list becomes a one-record list. A stored list gets the record in front, with the rest unchanged. An unreadable list is left alone. |
| LoanForm.HandleSubmit | components/LoanApplicationForm.tsx:192-236 | An incomplete form writes nothing and shows exactly the submit-time errors. A complete one is marked submitted and stores the new record in front. |
| LoanForm.HandleNewApplication | components/LoanApplicationForm.tsx:292-311 | The form returns to step 1, unsubmitted, with no errors and every field empty. |
| LoanForm.FreshFormNextStep | components/LoanApplicationForm.tsx:171-180 | "Next" on a fresh form reports all six personal fields, the phone as "required", and stays on step 1. |
| Admin.LoadApplications | components/AdminPanel.tsx:44-49 | A stored list replaces the shown one. Nothing stored leaves it as it was. |
| Admin.Mount | components/AdminPanel.tsx:35-42 | The panel opens logged in exactly when the tab's session value is "true", and then shows the stored list. |
| Admin.Login | components/AdminPanel.tsx:51-62 | Valid credentials log in, set the session, load the list and clear the error, keeping the status filter. Anything else only sets "Invalid credentials". |
| Admin.LoginIff | components/AdminPanel.tsx:54 | A logged-out panel logs in exactly for user "admin" with password "admin123". |
| Admin.Logout | components/AdminPanel.tsx:64-68 | Logout leaves the panel logged out with no session value. |
| Admin.LogoutRequiresLogin | components/AdminPanel.tsx:64-68 | After logout, opening the panel again asks for the password. |
| Admin.LoginSurvivesRemount | components/AdminPanel.tsx:35-62 | After a login, re-opening the panel in the same tab skips the login. |
| Admin.RateTiers | components/AdminPanel.tsx:75-82 | The rate is 5 percent exactly up to 299, 7 exactly from 300 to 599 and 10 exactly from 600 on. It is 0 exactly in the gaps (299, 300) and (599, 600), and never decreases with the amount outside them. |
| Admin.WholePesosHaveRate | components/AdminPanel.tsx:75-82 | No whole-peso amount falls in a gap. |
| Admin.RepaymentOn | components/AdminPanel.tsx:74-85 | The rate is the amount's tier. The interest is that percentage of the amount, and the total is the amount plus the interest. |
| Admin.CalculateRepayment | components/AdminPanel.tsx:71-91 | Text that does not parse gives zeros everywhere. Otherwise the repayment is that of the parsed amount. |
| Admin.RepaymentOfDecimal | components/AdminPanel.tsx:71-91 | A whole amount typed as digits gets the repayment of that amount, at 5, 7 or 10 percent. |
| Admin.UpdateStatus | components/AdminPanel.tsx:126-136 | The list keeps its length. Each record with the id takes the new status with every other field kept, and every other record is unchanged. |
| Admin.UpdateStatusFrame | components/AdminPanel.tsx:126-136 | Only matching records change, and only in their status, which becomes the new one. Length and order are kept. |
| Admin.UpdateStatusIdempotent | components/AdminPanel.tsx:126-136 | Applying the same status change twice is the same as applying it once. |
| Admin.Notices | components/AdminPanel.tsx:126-132 | There is one notice per matching record whose status really changes to Approved or Rejected, and every notice is about such a record. |
| Admin.NoNoticeOnRepeat | components/AdminPanel.tsx:130 | Repeating a status change sends no notice. |
| Admin.DeleteApplication | components/AdminPanel.tsx:142-143 | Unconfirmed, nothing changes. Confirmed, exactly the records with other ids remain, with their multiplicities and in order. |
| Admin.ChangeStatus | components/AdminPanel.tsx:125-139 | The panel's list gets the new status. That whole list is what storage holds afterwards, whatever storage held before. Nothing else in the panel changes. |
| Admin.Delete | components/AdminPanel.tsx:141-147 | Unconfirmed, neither the panel nor storage changes. Confirmed, the panel shows the list without the id, and that whole list is what storage holds afterwards. |
| Admin.ChangeStatusKeepsIds | components/AdminPanel.tsx:125-139 | Every record written back by a status change has the id of a record in the panel's list. |
| Admin.FilteredApps | components/AdminPanel.tsx:194-196 | "All" shows the whole list. Any other filter shows exactly the records with that status name, with multiplicities and in order. |
| Admin.ComputeStats | components/AdminPanel.tsx:276-293 | Total is the list length. Pending and Approved are the sizes of the Pending and Approved filtered views. "Total Disbursed" is the sum from 0 of the amounts of the Approved and Paid records only. |
| Admin.SumAmounts | components/AdminPanel.tsx:291 | The left-to-right sum of `Number(loanAmount)` stays not-a-number once it is. |
| Admin.SumAmountsShift | components/AdminPanel.tsx:291 | The reduction's starting value can be added after summing from 0. |
| Admin.DisbursedIsFilterSum | components/AdminPanel.tsx:288-291 | The record-by-record "Total Disbursed" equals the filter to Approved and Paid followed by the reduce from 0. Pending and Rejected records add nothing. |
| Admin.PrependPendingStats | components/AdminPanel.tsx:276-286 | A Pending record added at the front raises Total and Pending by one. Approved and "Total Disbursed" keep their values. |
| Admin.FiltersPartition | components/AdminPanel.tsx:276-286 | The four status filters together cover the list exactly once. |
| Admin.DisbursedConcat | components/AdminPanel.tsx:288-293 | "Total Disbursed" of two lists put together is the sum of theirs, and not a number if either is not. |
| Admin.DisbursedStableUnderUpdate | components/AdminPanel.tsx:125-139 | A status change that keeps each matching record on the same side of Approved/Paid versus Pending/Rejected leaves "Total Disbursed" alone. |
| Admin.TransitionGraph | components/AdminPanel.tsx:378-453 | No row button keeps the status or leads to Pending. Paid is offered only on Approved rows, and every button but "Mark Paid" notifies. Delete is offered exactly on Pending and Rejected rows. |
| Payment.HandleChange | components/PaymentForm.tsx:22-25 | One field changes and the others and the method stay. |
| Payment.HandleMethodChange | components/PaymentForm.tsx:27-29 | Only the method changes. |
| Payment.MarkPaid | components/PaymentForm.tsx:44-54 | The list keeps its length. Each record that settles becomes Paid with every other field kept, and every other record is unchanged. |
| Payment.MarkPaidFrame | components/PaymentForm.tsx:44-54 | Records matching by name and phone that are Pending or Approved become Paid. Every other record, and every other field, stays. |
| Payment.MarkPaidChangesIff | components/PaymentForm.tsx:40-57 | The list changes exactly when some record matches. |
| Payment.MarkPaidIdempotent | components/PaymentForm.tsx:44-54 | After a payment nothing matches it any more, so submitting it again changes nothing. |
| Payment.SettlesIgnoresPadding | components/PaymentForm.tsx:46-47 | Surrounding white space on the typed name or phone, and the case of the name, do not affect matching. |
| Payment.WalletEffects | components/PaymentForm.tsx:74-78 | GCash opens the GCash site and Maya the Maya site. In-person payment opens nothing. |
| Payment.HandleSubmit | components/PaymentForm.tsx:31-82 | The form always moves to step 2. Storage is rewritten, and the sync broadcast sent, exactly when a stored list has a match. The wallet site opens by method. |
| DocStore.CollectionKey | firebaseConfig.ts:7-10 | "applications" maps to the shared `loanApplications` key. Every other collection maps to its prefixed key. |
| DocStore.CollectionKeyInjective | firebaseConfig.ts:7-10 | Different collections never share a storage key. |
| DocStore.GetData | firebaseConfig.ts:13-20 | Stored JSON gives its documents. Missing or unparsable data gives the empty list. |
| DocStore.SetData | firebaseConfig.ts:23-27 | The key reads back as written, every other key is untouched, and one local update event for the key is dispatched. |
| DocStore.NewDoc | firebaseConfig.ts:43-49 | The new document has the data's fields plus id and date. A data id overrides the generated one. An absent or empty date is filled with the clock's date. |
| DocStore.AddDoc | firebaseConfig.ts:39-54 | The collection gains exactly the new document at its end, the generated id is returned, and one update event is sent. |
| DocStore.FindIndex | firebaseConfig.ts:63 | The index found is the first document with the id, and no index means no document has it. |
| DocStore.UpdateDoc | firebaseConfig.ts:60-68 | Without a document with the id, nothing is written. Otherwise only that document changes, with the given fields laid over its own. |
| DocStore.DeleteDoc | firebaseConfig.ts:70-75 | Exactly the documents with other ids remain, and the write always happens. |
| DocStore.OperationsStayInCollection | firebaseConfig.ts:39-75 | Adding, updating and deleting never change another collection's data. |
| DocStore.MakeOrderBy | firebaseConfig.ts:81-83 | The constraint keeps the field, and the direction defaults to ascending. |
| DocStore.Snapshot | firebaseConfig.ts:88-112 | One snapshot entry per stored document, whose id is the document's `id` field. Without constraints, entry i holds stored document i. |
| DocStore.SnapshotOrdered | firebaseConfig.ts:88-112 | A snapshot holds exactly the stored documents. Without constraints they come in stored order. Under `orderBy` on a field every document carries, they come in that field's order. |
| DocStore.Subscribe | firebaseConfig.ts:85-116 | Subscribing registers an active listener on the collection's storage key. The initial call hands the callback exactly the stored documents, in stored order when the query has no constraints. |
| DocStore.Listen | firebaseConfig.ts:115-136 | The callback runs once on subscribing. After that it runs for exactly the signals that carry the collection's key and come before any unsubscribe. |
| DocStore.Deliver | firebaseConfig.ts:119-136 | A listener runs only for an event while subscribed. Unsubscribing stops it. |
| DocStore.RunFiresOnKey | firebaseConfig.ts:116-136 | The listener runs for exactly the events carrying its key that come before any unsubscribe. |
| DocStore.WriteReachesOwnListeners | firebaseConfig.ts:23-27 | Every update event that `addDoc`, `updateDoc` or `deleteDoc` dispatches runs a fresh subscription exactly when it watches the written collection. Adding and deleting dispatch one event; updating dispatches one exactly when the id is found. |
| Documents.Compare | firebaseConfig.ts:96-102 | The comparator returns -1, 0 or 1, returns 0 when either field is missing, and follows string order in the direction asked. |
| Documents.BeforeIff | firebaseConfig.ts:96-102 | With both fields present, "may come first" is "not greater" ascending and "not smaller" descending. |
| Documents.BeforeTransitive | firebaseConfig.ts:96-102 | With the field present, the comparator's order is transitive. |
| Documents.Sort | firebaseConfig.ts:96 | Sorting is a permutation of the documents. |
| Documents.SortSorted | firebaseConfig.ts:94-103 | When every document has the field, the sorted list is ordered by it, ascending or descending as asked. |
| Records.StatusNameInjective | components/AdminPanel.tsx:11 | The four status names are distinct and none is the "All" filter. |
| Text.Includes | App.tsx:31 | `includes` is true exactly when the marker occurs at some position. |
| Text.TrimShape | components/PaymentForm.tsx:46-47 | Every string is its trimmed core padded with white space on both sides. |
| Text.TrimIgnoresPadding | components/PaymentForm.tsx:46-47 | Extra white space around a string does not change its trimmed form. |
| Text.LessTotal | firebaseConfig.ts:99-100 | Two different strings are ordered one way or the other by `<`. |
| Numeric.DecimalRoundTrip | components/LoanApplicationForm.tsx:222 | The decimal text of a timestamp reads back as that timestamp. |
| Numeric.DecimalInjective | components/LoanApplicationForm.tsx:222 | Different timestamps give different ids. |
| Numeric.ParseFloat | components/AdminPanel.tsx:72 | `parseFloat` finds a number exactly when the text after leading white space starts with a digit. The number is never negative. |
| Numeric.ToNumber | components/AdminPanel.tsx:291 | `Number` of blank text is 0, and of digits is their value. |
| Numeric.ParseDecimalRoundTrip | components/AdminPanel.tsx:72 | A printed whole number reads back as itself under both `parseFloat` and `Number`. |
| Workflow.SubmitAddsPending | components/LoanApplicationForm.tsx:221-236 | On a dashboard opened after the submit, the application adds one to the total and pending counts. Approved and "Total Disbursed" stay unchanged. |
| Workflow.StatusChangeDropsLaterSubmission | components/AdminPanel.tsx:137-138 | A status change in a panel opened before a submission writes back a list in which no record has the new application's id. |
| Workflow.DeleteDropsLaterSubmission | components/AdminPanel.tsx:143-145 | A confirmed delete in a panel opened before a submission writes back a list in which no record has the new application's id. |
| Workflow.StatusChangeUndoesLaterPayment | components/AdminPanel.tsx:126-138 | A payment that marked a record Paid while the panel was open is undone by the panel's next status change on another record: storage gets the record back as the panel last saw it. |
| Workflow.PaymentSettlesSubmission | components/PaymentForm.tsx:44-54 | Paying with the name and phone given on the form marks the newly submitted record Paid. |
| Workflow.PaymentOnApprovedKeepsDisbursed | components/PaymentForm.tsx:44-54 | A payment that settles only Approved records leaves "Total Disbursed" unchanged. |
| Workflow.PaymentMatchesAdminMarkPaid | components/AdminPanel.tsx:397-404 | When the payment matches exactly the Approved records with one id, it has the same effect as the admin's "Mark Paid" on that id. |

## Left out

- The status check uses only the fragment and the stored flag.
  - The shell keeps no admin exemption across a session and has no whitelisted location.
  - No visibility or page-show event triggers a check.
- The recovery poll redirects on every poll that reads the flag off; there is no one-shot latch.
- Rendering, styling and HTML `required` attributes are left out. The model keeps only the handlers' own checks, which are what store data.
- The e-mail hand-off (`mailto:` link), `alert`, `confirm`, `window.open`, `BroadcastChannel`, `setTimeout` and the `setInterval` timing are reduced:
  - confirmation is a boolean parameter;
  - the rest are effect values, or are dropped when nothing reads them (notice texts, the reminder message, `toFixed` formatting).
- `sendReminders` and `getStatusColor` are left out. They only format text for alerts and colours.
- The signature canvas's coordinate arithmetic and drawing calls are left out. Only the data URL that ends a stroke is modelled.
- `Date.now()`, `new Date().toISOString()`, and the random base-36 ids of `addDoc` come in as parameters.
- `JSON.parse` and `JSON.stringify` are not modelled character by character:
  - stored data is either a parsed list or `Malformed`;
  - parsed values are assumed to have the record's fields, and documents are string-valued maps;
  - a parse failure in the form's or the payment form's `handleSubmit` leaves storage unchanged, as their `try`/`catch` does.
- Admin.LoadApplications: an unparsable stored list leaves the shown list as it was; the code has no `try` there and would throw out of the handler.
- `Numeric.ParseFloat` and `Numeric.ToNumber` accept only ASCII digits with an optional fraction after leading white space.
  - Signs, exponents, a leading '.', `Infinity`, hexadecimal forms and the float rounding of long inputs are out.
  - Their contracts state when a number is found, that it is never negative, and the value of whole-number text. The value of a fraction is left unstated.
- `Admin.Disbursed`: "Total Disbursed" adds the `Number` values of the loan amounts as reals, so the rounding of IEEE doubles (`0.1 + 0.2` is not `0.3` there) is not modelled. The `toLocaleString()` formatting of the total is left out too.
- `Admin.RepaymentOn`: real arithmetic replaces IEEE doubles, so `0.07 * 300` is exact here.
- `Text.Lower` and `Text.Trim` cover ASCII only; `toLowerCase` and `trim` also handle Unicode letters and spaces.
- `Text.Less` compares characters by code point, whereas JavaScript compares UTF-16 code units; the two differ only above the Basic Multilingual Plane.
- `Documents.Sort` models `Array.prototype.sort` as a stable insertion sort.
  - Ordering is proved only when every document carries the sort field.
  - With a missing field the comparator is not a consistent order, and the engine's result is implementation-defined.
  - Only the first `orderBy` constraint is used, as `find` does.
- The per-second polling of the shell and of the maintenance page is modelled as a sequence of trigger events, not as time.

=== FILE: admin.dfy ===
/**
 * The admin panel: the hard-coded login and its per-tab session flag, the
 * repayment tiers, status changes with their automatic notices, deletion,
 * the status filter, the summary figures, and which status changes the row
 * buttons offer.
 */
module Admin {
  import opened Wrappers
  import opened Numeric
  import opened Records
  import opened Seqs

  // ---------------------------------------------------------------------
  // login

  const AdminUser := "admin"
  const AdminPassword := "admin123"

  /**
   * The panel: whether the login passed, the login error text, the list it
   * shows, the selected status filter, and the tab's `adminAuth` session value.
   */
  datatype AdminState = AdminState(
    authenticated: bool, error: string, apps: seq<Application>, filter: string, session: Option<string>)

  /** `loadApplications`: the stored list replaces the shown one; nothing stored leaves it alone. */
  function LoadApplications(stored: StoredApps, current: seq<Application>): (r: seq<Application>)
    ensures stored.Apps? ==> r == stored.apps
    ensures !stored.Apps? ==> r == current
  {
    match stored
    case Apps(apps) => apps
    case _ => current
  }

  /** Opening the panel: a tab whose session says "true" skips the login. */
  function Mount(session: Option<string>, stored: StoredApps): (r: AdminState)
    ensures r.authenticated <==> session == Some("true")
    ensures r.authenticated && stored.Apps? ==> r.apps == stored.apps
    ensures !r.authenticated ==> r.apps == []
    ensures r.filter == "All" && r.session == session
  {
    var st := AdminState(false, "", [], "All", session);
    if session == Some("true") then st.(authenticated := true, apps := LoadApplications(stored, [])) else st
  }

  predicate ValidCredentials(user: string, password: string) {
    user == AdminUser && password == AdminPassword
  }

  /** `handleLogin`. */
  function Login(st: AdminState, user: string, password: string, stored: StoredApps): (r: AdminState)
    ensures ValidCredentials(user, password) ==>
      r.authenticated && r.session == Some("true") && r.error == "" && r.apps == LoadApplications(stored, st.apps)
      && r.filter == st.filter
    ensures !ValidCredentials(user, password) ==>
      r == st.(error := "Invalid credentials")
  {
    if ValidCredentials(user, password) then
      st.(authenticated := true, session := Some("true"), apps := LoadApplications(stored, st.apps), error := "")
    else
      st.(error := "Invalid credentials")
  }

  /** Login succeeds for exactly one user name and password pair. */
  lemma LoginIff(st: AdminState, user: string, password: string, stored: StoredApps)
    requires !st.authenticated
    ensures Login(st, user, password, stored).authenticated <==> user == "admin" && password == "admin123"
  {
  }

  /** `handleLogout` (which then calls the shell's back action). */
  function Logout(st: AdminState): (r: AdminState)
    ensures !r.authenticated && r.session == None
    ensures r.apps == st.apps
  {
    st.(authenticated := false, session := None)
  }

  /** After logging out, opening the panel again asks for the password again. */
  lemma LogoutRequiresLogin(st: AdminState, stored: StoredApps)
    ensures !Mount(Logout(st).session, stored).authenticated
  {
  }

  /** A login survives re-opening the panel in the same tab. */
  lemma LoginSurvivesRemount(st: AdminState, stored: StoredApps)
    ensures Mount(Login(st, AdminUser, AdminPassword, stored).session, stored).authenticated
  {
  }

  // ---------------------------------------------------------------------
  // repayment

  /** The interest tier, in percent, of an amount in pesos. */
  function RatePercent(amount: real): nat {
    if amount <= 299.0 then 5
    else if 300.0 <= amount <= 599.0 then 7
    else if amount >= 600.0 then 10
    else 0
  }

  /**
   * The tiers leave two gaps: amounts strictly between 299 and 300 or
   * between 599 and 600 get no interest; every other amount gets 5, 7 or 10
   * percent, never decreasing as the amount grows outside the gaps. Up to
   * 299 pesos the rate is 5, from 300 to 599 it is 7, from 600 on it is 10.
   */
  lemma RateTiers(a: real, b: real)
    ensures RatePercent(a) == 5 <==> a <= 299.0
    ensures RatePercent(a) == 7 <==> 300.0 <= a <= 599.0
    ensures RatePercent(a) == 10 <==> a >= 600.0
    ensures RatePercent(a) == 0 <==> (299.0 < a < 300.0 || 599.0 < a < 600.0)
    ensures RatePercent(a) in {0, 5, 7, 10}
    ensures RatePercent(a) != 0 && RatePercent(b) != 0 && a <= b ==> RatePercent(a) <= RatePercent(b)
  {
  }

  /** Whole peso amounts never fall in a gap. */
  lemma WholePesosHaveRate(n: int)
    ensures RatePercent(n as real) != 0
  {
  }

  /** Total due, the rate in percent and the interest; all zero when the amount is not a number. */
  datatype Repayment = Repayment(total: real, ratePercent: nat, interest: real)

  /** The repayment on an amount that parsed as a number. */
  function RepaymentOn(amount: real): (r: Repayment)
    ensures r.ratePercent == RatePercent(amount)
    ensures 100.0 * r.interest == amount * r.ratePercent as real
    ensures r.total == amount + r.interest
  {
    var rate := RatePercent(amount);
    var interest := amount * rate as real / 100.0;
    Repayment(amount + interest, rate, interest)
  }

  /** `calculateRepayment` before the figures are formatted. */
  function CalculateRepayment(amountText: string): (r: Repayment)
    ensures ParseFloat(amountText).None? ==> r == Repayment(0.0, 0, 0.0)
    ensures ParseFloat(amountText).Some? ==> r == RepaymentOn(ParseFloat(amountText).value)
  {
    var p := ParseFloat(amountText);
    if p.None? then Repayment(0.0, 0, 0.0) else RepaymentOn(p.value)
  }

  /** A whole peso amount typed in the form is always charged one of the three rates. */
  lemma RepaymentOfDecimal(n: nat)
    ensures CalculateRepayment(Decimal(n)) == RepaymentOn(n as real)
    ensures CalculateRepayment(Decimal(n)).ratePercent in {5, 7, 10}
  {
    ParseDecimalRoundTrip(n);
    WholePesosHaveRate(n);
    RateTiers(n as real, n as real);
  }

  // ---------------------------------------------------------------------
  // status changes

  /** A notice goes out when the status really changes to Approved or Rejected. */
  predicate Notifies(before: Status, after: Status) {
    before != after && (after == Approved || after == Rejected)
  }

  /** One automatic SMS/e-mail notice: the record as it was and the status it moved to. */
  datatype Notice = Notice(app: Application, status: Status)

  /** One record under `updateStatus`. */
  function Retag(a: Application, id: string, s: Status): Application {
    if a.id == id then a.(status := s) else a
  }

  /** `updateStatus`: every record with the id takes the new status. */
  function UpdateStatus(apps: seq<Application>, id: string, s: Status): (r: seq<Application>)
    ensures |r| == |apps|
    ensures forall i :: 0 <= i < |r| && apps[i].id == id ==> r[i] == apps[i].(status := s)
    ensures forall i :: 0 <= i < |r| && apps[i].id != id ==> r[i] == apps[i]
    decreases |apps|
  {
    if |apps| == 0 then [] else [Retag(apps[0], id, s)] + UpdateStatus(apps[1..], id, s)
  }

  lemma {:induction false} UpdateStatusAt(apps: seq<Application>, id: string, s: Status)
    ensures forall i :: 0 <= i < |apps| ==> UpdateStatus(apps, id, s)[i] == Retag(apps[i], id, s)
    decreases |apps|
  {
    if |apps| > 0 {
      UpdateStatusAt(apps[1..], id, s);
      forall i | 1 <= i < |apps|
        ensures UpdateStatus(apps, id, s)[i] == Retag(apps[i], id, s)
      {
        assert UpdateStatus(apps, id, s)[i] == UpdateStatus(apps[1..], id, s)[i - 1];
      }
    }
  }

  /**
   * Only the status of matching records changes: length, order, every other
   * field and every other record stay as they were.
   */
  lemma UpdateStatusFrame(apps: seq<Application>, id: string, s: Status)
    ensures var r := UpdateStatus(apps, id, s);
      && |r| == |apps|
      && (forall i :: 0 <= i < |r| ==> r[i].(status := apps[i].status) == apps[i])
      && (forall i :: 0 <= i < |r| && apps[i].id != id ==> r[i] == apps[i])
      && (forall i :: 0 <= i < |r| && apps[i].id == id ==> r[i].status == s)
  {
    UpdateStatusAt(apps, id, s);
  }

  /** Repeating a status change changes nothing more. */
  lemma {:induction false} UpdateStatusIdempotent(apps: seq<Application>, id: string, s: Status)
    ensures UpdateStatus(UpdateStatus(apps, id, s), id, s) == UpdateStatus(apps, id, s)
    decreases |apps|
  {
    if |apps| > 0 {
      var r := UpdateStatus(apps, id, s);
      assert r[1..] == UpdateStatus(apps[1..], id, s);
      UpdateStatusIdempotent(apps[1..], id, s);
    }
  }

  /** The notices an update sends, in list order. */
  function Notices(apps: seq<Application>, id: string, s: Status): (ns: seq<Notice>)
    ensures |ns| == CountWhere(apps, (a: Application) => a.id == id && Notifies(a.status, s))
    ensures forall n :: n in ns ==> n.app in apps && n.app.id == id && Notifies(n.app.status, s) && n.status == s
    decreases |apps|
  {
    if |apps| == 0 then []
    else
      var rest := Notices(apps[1..], id, s);
      assert forall a :: a in apps[1..] ==> a in apps;
      if apps[0].id == id && Notifies(apps[0].status, s) then [Notice(apps[0], s)] + rest else rest
  }

  /** Repeating a status change sends no second notice. */
  lemma {:induction false} NoNoticeOnRepeat(apps: seq<Application>, id: string, s: Status)
    ensures Notices(UpdateStatus(apps, id, s), id, s) == []
    decreases |apps|
  {
    if |apps| > 0 {
      var r := UpdateStatus(apps, id, s);
      assert r[1..] == UpdateStatus(apps[1..], id, s);
      NoNoticeOnRepeat(apps[1..], id, s);
    }
  }

  /** `deleteApplication`, after the confirmation dialog answered `confirmed`. */
  function DeleteApplication(apps: seq<Application>, id: string, confirmed: bool): (r: seq<Application>)
    ensures !confirmed ==> r == apps
    ensures confirmed ==> forall a :: a in r <==> a in apps && a.id != id
    ensures confirmed ==> forall a :: multiset(r)[a] == if a.id != id then multiset(apps)[a] else 0
    ensures IsSubsequence(r, apps)
  {
    if confirmed then Filter(apps, (a: Application) => a.id != id)
    else
      SubsequenceReflexive(apps);
      apps
  }

  // ---------------------------------------------------------------------
  // saving the panel's list

  /**
   * What a row action leaves behind: the panel, and the value of
   * `loanApplications` afterwards. The panel reads storage only when it is
   * opened or logged in, and each action writes the panel's own list back
   * over whatever storage holds by then.
   */
  datatype Saved = Saved(panel: AdminState, stored: StoredApps)

  /** `updateStatus`: the panel's list gets the new status and is written back whole. */
  function ChangeStatus(st: AdminState, stored: StoredApps, id: string, s: Status): (r: Saved)
    ensures r.panel.apps == UpdateStatus(st.apps, id, s)
    ensures r.panel == st.(apps := r.panel.apps)
    ensures r.stored == Apps(r.panel.apps)
  {
    var apps := UpdateStatus(st.apps, id, s);
    Saved(st.(apps := apps), Apps(apps))
  }

  /** `deleteApplication`: unconfirmed, nothing happens; confirmed, the shortened list is written back whole. */
  function Delete(st: AdminState, stored: StoredApps, id: string, confirmed: bool): (r: Saved)
    ensures !confirmed ==> r == Saved(st, stored)
    ensures confirmed ==> r.panel == st.(apps := DeleteApplication(st.apps, id, true))
    ensures confirmed ==> r.stored == Apps(r.panel.apps)
  {
    if confirmed then
      var apps := DeleteApplication(st.apps, id, true);
      Saved(st.(apps := apps), Apps(apps))
    else
      Saved(st, stored)
  }

  /** A status change keeps the ids of the panel's list: it writes back no record the panel did not have. */
  lemma ChangeStatusKeepsIds(st: AdminState, stored: StoredApps, id: string, s: Status)
    ensures forall a :: a in ChangeStatus(st, stored, id, s).stored.apps ==>
      exists b :: b in st.apps && b.id == a.id
  {
    var r := UpdateStatus(st.apps, id, s);
    UpdateStatusFrame(st.apps, id, s);
    forall a | a in r
      ensures exists b :: b in st.apps && b.id == a.id
    {
      var i :| 0 <= i < |r| && r[i] == a;
      assert st.apps[i] in st.apps && st.apps[i].id == a.id;
    }
  }

  // ---------------------------------------------------------------------
  // filter and figures

  /** The predicate behind a status filter button. */
  function StatusIs(filter: string): Application -> bool {
    (a: Application) => StatusName(a.status) == filter
  }

  /** `filteredApps`: "All" shows everything, any other filter exactly the records with that status. */
  function FilteredApps(apps: seq<Application>, filter: string): (r: seq<Application>)
    ensures filter == "All" ==> r == apps
    ensures filter != "All" ==> forall a :: a in r <==> a in apps && StatusName(a.status) == filter
    ensures filter != "All" ==> forall a :: multiset(r)[a] == if StatusName(a.status) == filter then multiset(apps)[a] else 0
    ensures IsSubsequence(r, apps)
  {
    if filter == "All" then
      SubsequenceReflexive(apps);
      apps
    else
      Filter(apps, StatusIs(filter))
  }

  /** The dashboard figures; `disbursed` is `None` when some counted amount is not a number. */
  datatype Stats = Stats(total: nat, pending: nat, approved: nat, disbursed: Option<real>)

  predicate Disbursing(a: Application) {
    a.status == Approved || a.status == Paid
  }

  /** Addition where `None` plays `NaN`. */
  function AddNum(x: Option<real>, y: Option<real>): Option<real> {
    if x.Some? && y.Some? then Some(x.value + y.value) else None
  }

  lemma AddNumAssoc(x: Option<real>, y: Option<real>, z: Option<real>)
    ensures AddNum(AddNum(x, y), z) == AddNum(x, AddNum(y, z))
  {
  }

  /** What one record adds to "Total Disbursed": its amount read with `Number`, or nothing. */
  function Contribution(a: Application): Option<real> {
    if Disbursing(a) then ToNumber(a.loanAmount) else Some(0.0)
  }

  /** "Total Disbursed": the amounts of Approved and Paid records, read with `Number`. */
  function Disbursed(apps: seq<Application>): Option<real>
    decreases |apps|
  {
    if |apps| == 0 then Some(0.0)
    else AddNum(Contribution(apps[0]), Disbursed(apps[1..]))
  }

  /**
   * `reduce((sum, app) => sum + Number(app.loanAmount), acc)`: the amounts
   * added from the left, starting at `acc`; once the sum is `NaN` it stays so.
   */
  function SumAmounts(acc: Option<real>, apps: seq<Application>): (r: Option<real>)
    ensures acc.None? ==> r.None?
    decreases |apps|
  {
    if |apps| == 0 then acc
    else SumAmounts(AddNum(acc, ToNumber(apps[0].loanAmount)), apps[1..])
  }

  lemma AddNumZero(x: Option<real>)
    ensures AddNum(Some(0.0), x) == x
  {
  }

  /** The starting value of the reduction can be added afterwards. */
  lemma {:induction false} SumAmountsShift(acc: Option<real>, apps: seq<Application>)
    ensures SumAmounts(acc, apps) == AddNum(acc, SumAmounts(Some(0.0), apps))
    decreases |apps|
  {
    if |apps| > 0 {
      var x := ToNumber(apps[0].loanAmount);
      var tail := SumAmounts(Some(0.0), apps[1..]);
      assert SumAmounts(acc, apps) == SumAmounts(AddNum(acc, x), apps[1..]);
      assert SumAmounts(Some(0.0), apps) == SumAmounts(AddNum(Some(0.0), x), apps[1..]);
      SumAmountsShift(AddNum(acc, x), apps[1..]);
      AddNumZero(x);
      SumAmountsShift(x, apps[1..]);
      AddNumAssoc(acc, x, tail);
    }
  }

  /** One unfolding of `Filter` at the front of the list. */
  lemma FilterStep(apps: seq<Application>)
    requires |apps| > 0
    ensures Filter(apps, Disbursing) ==
      if Disbursing(apps[0]) then [apps[0]] + Filter(apps[1..], Disbursing) else Filter(apps[1..], Disbursing)
  {
  }

  /** A record in front that is kept by the filter adds its amount first. */
  lemma SumFront(a: Application, rest: seq<Application>)
    ensures SumAmounts(Some(0.0), [a] + rest) == AddNum(ToNumber(a.loanAmount), SumAmounts(Some(0.0), rest))
  {
    var x := ToNumber(a.loanAmount);
    assert ([a] + rest)[0] == a;
    assert ([a] + rest)[1..] == rest;
    assert SumAmounts(Some(0.0), [a] + rest) == SumAmounts(AddNum(Some(0.0), x), rest);
    AddNumZero(x);
    SumAmountsShift(x, rest);
  }

  /**
   * "Total Disbursed" is the source's filter-then-reduce: the Approved and
   * Paid records kept in order, their amounts summed from 0. Pending and
   * Rejected records contribute nothing.
   */
  lemma {:induction false} DisbursedIsFilterSum(apps: seq<Application>)
    ensures Disbursed(apps) == SumAmounts(Some(0.0), Filter(apps, Disbursing))
    decreases |apps|
  {
    if |apps| > 0 {
      DisbursedIsFilterSum(apps[1..]);
      FilterStep(apps);
      var rest := Filter(apps[1..], Disbursing);
      assert Disbursed(apps) == AddNum(Contribution(apps[0]), Disbursed(apps[1..]));
      if Disbursing(apps[0]) {
        SumFront(apps[0], rest);
      } else {
        AddNumZero(Disbursed(apps[1..]));
      }
    }
  }

  function ComputeStats(apps: seq<Application>): (r: Stats)
    ensures r.total == |apps|
    ensures r.pending == |FilteredApps(apps, "Pending")|
    ensures r.approved == |FilteredApps(apps, "Approved")|
    ensures r.disbursed == SumAmounts(Some(0.0), Filter(apps, Disbursing))
  {
    CountIsFilterSize(apps, StatusIs("Pending"));
    CountIsFilterSize(apps, StatusIs("Approved"));
    DisbursedIsFilterSum(apps);
    Stats(|apps|, CountWhere(apps, StatusIs("Pending")), CountWhere(apps, StatusIs("Approved")), Disbursed(apps))
  }

  /** One more Pending record in front adds one to the total and pending counts and nothing else. */
  lemma PrependPendingStats(a: Application, apps: seq<Application>)
    requires a.status == Pending
    ensures ComputeStats([a] + apps) == ComputeStats(apps).(total := |apps| + 1, pending := ComputeStats(apps).pending + 1)
  {
    var l := [a] + apps;
    assert l[0] == a && l[1..] == apps;
    assert CountWhere(l, StatusIs("Pending")) == 1 + CountWhere(apps, StatusIs("Pending"));
    assert CountWhere(l, StatusIs("Approved")) == CountWhere(apps, StatusIs("Approved"));
    assert Disbursed(l) == Disbursed(apps);
  }

  /** The four status filters split the list: their sizes add up to the total. */
  lemma {:induction false} FiltersPartition(apps: seq<Application>)
    ensures |FilteredApps(apps, "Pending")| + |FilteredApps(apps, "Approved")|
          + |FilteredApps(apps, "Rejected")| + |FilteredApps(apps, "Paid")| == |apps|
    decreases |apps|
  {
    CountIsFilterSize(apps, StatusIs("Pending"));
    CountIsFilterSize(apps, StatusIs("Approved"));
    CountIsFilterSize(apps, StatusIs("Rejected"));
    CountIsFilterSize(apps, StatusIs("Paid"));
    CountPartition(apps);
  }

  lemma {:induction false} CountPartition(apps: seq<Application>)
    ensures CountWhere(apps, StatusIs("Pending")) + CountWhere(apps, StatusIs("Approved"))
          + CountWhere(apps, StatusIs("Rejected")) + CountWhere(apps, StatusIs("Paid")) == |apps|
    decreases |apps|
  {
    if |apps| > 0 {
      CountPartition(apps[1..]);
    }
  }

  /** "Total Disbursed" of two lists put together is the sum of theirs. */
  lemma {:induction false} DisbursedConcat(a: seq<Application>, b: seq<Application>)
    ensures Disbursed(a + b) == AddNum(Disbursed(a), Disbursed(b))
    decreases |a|
  {
    if |a| == 0 {
      assert a + b == b;
    } else {
      assert (a + b)[0] == a[0];
      assert (a + b)[1..] == a[1..] + b;
      DisbursedConcat(a[1..], b);
      AddNumAssoc(Contribution(a[0]), Disbursed(a[1..]), Disbursed(b));
    }
  }

  /**
   * A status change that keeps every matching record on the same side of
   * Approved/Paid versus Pending/Rejected leaves "Total Disbursed" alone: so
   * does "Mark Paid" on an Approved record and "Revert to Unpaid".
   */
  lemma {:induction false} DisbursedStableUnderUpdate(apps: seq<Application>, id: string, s: Status)
    requires forall a :: a in apps && a.id == id ==> (Disbursing(a) <==> s == Approved || s == Paid)
    ensures Disbursed(UpdateStatus(apps, id, s)) == Disbursed(apps)
    decreases |apps|
  {
    if |apps| > 0 {
      var r := UpdateStatus(apps, id, s);
      assert r[1..] == UpdateStatus(apps[1..], id, s);
      assert apps[0] in apps;
      DisbursedStableUnderUpdate(apps[1..], id, s);
    }
  }

  // ---------------------------------------------------------------------
  // the row buttons

  /** The statuses a row's buttons can move a record to. */
  function Offered(s: Status): set<Status> {
    match s
    case Pending => {Approved, Rejected}
    case Approved => {Paid, Rejected}
    case Rejected => {Approved}
    case Paid => {Approved}
  }

  /** "Delete Record" is shown for records that are neither Paid nor Approved. */
  predicate DeleteOffered(s: Status) {
    s != Paid && s != Approved
  }

  /**
   * The button graph: no button keeps the status, none leads back to
   * Pending, Paid is reached only from Approved, every button but "Mark
   * Paid" sends a notice, and deletion is offered for Pending and Rejected.
   */
  lemma TransitionGraph(s: Status, t: Status)
    ensures t in Offered(s) ==> t != s && t != Pending
    ensures Paid in Offered(s) <==> s == Approved
    ensures t in Offered(s) ==> (Notifies(s, t) <==> t != Paid)
    ensures DeleteOffered(s) <==> s == Pending || s == Rejected
  {
  }
}

=== FILE: docstore.dfy ===
/**
 * The mock document store: collections kept as lists of documents in
 * string-keyed browser storage, with add, update, delete, ordered queries
 * and change listeners.
 */
module DocStore {
  import opened Wrappers
  import opened Seqs
  import opened Documents
  import Records

  // ---------------------------------------------------------------------
  // collections and storage

  const ApplicationsCollection := "applications"
  const MockPrefix := "firebase_mock_"

  /** `getCollectionKey`: the storage key a collection lives under. */
  function CollectionKey(name: string): (key: string)
    ensures name == ApplicationsCollection ==> key == Records.ApplicationsKey
    ensures name != ApplicationsCollection ==> key == MockPrefix + name
  {
    if name == ApplicationsCollection then Records.ApplicationsKey else MockPrefix + name
  }

  /** Different collections never share a storage key. */
  lemma CollectionKeyInjective(m: string, n: string)
    ensures CollectionKey(m) == CollectionKey(n) <==> m == n
  {
    assert (MockPrefix + m)[0] != Records.ApplicationsKey[0];
    assert (MockPrefix + n)[0] != Records.ApplicationsKey[0];
    assert (MockPrefix + m)[|MockPrefix|..] == m;
    assert (MockPrefix + n)[|MockPrefix|..] == n;
  }

  /** A stored value: a JSON list of documents, or text that does not parse. */
  datatype Raw = Malformed | Json(docs: seq<Doc>)

  /** Browser storage: keys without an entry (or with an empty one) are absent. */
  type Storage = map<string, Raw>

  /** `getData`: the stored documents, or none when the entry is missing or does not parse. */
  function GetData(st: Storage, key: string): (docs: seq<Doc>)
    ensures key in st && st[key].Json? ==> docs == st[key].docs
    ensures !(key in st && st[key].Json?) ==> docs == []
  {
    if key in st && st[key].Json? then st[key].docs else []
  }

  /** The event `setData` dispatches in the same window, or a `storage` event from another tab. */
  datatype StoreEvent = LocalUpdate(key: Option<string>) | StorageEvent(key: Option<string>)

  /** The storage after an operation and the events it dispatched. */
  datatype Written = Written(storage: Storage, events: seq<StoreEvent>)

  /** `setData`: store the list and announce the key. */
  function SetData(st: Storage, key: string, docs: seq<Doc>): (w: Written)
    ensures GetData(w.storage, key) == docs
    ensures forall k :: k != key ==> (k in w.storage <==> k in st) && (k in st ==> w.storage[k] == st[k])
    ensures w.events == [LocalUpdate(Some(key))]
  {
    Written(st[key := Json(docs)], [LocalUpdate(Some(key))])
  }

  // ---------------------------------------------------------------------
  // add, update, delete

  /** The document `addDoc` builds: the id, then the given fields, then a date if it had none. */
  function NewDoc(data: Doc, genId: string, nowIso: string): (d: Doc)
    ensures d.Keys == data.Keys + {"id", "date"}
    ensures forall k :: k in data && k != "date" ==> d[k] == data[k]
    ensures "id" !in data ==> d["id"] == genId
    ensures d["date"] == if "date" in data && data["date"] != "" then data["date"] else nowIso
  {
    var base := map["id" := genId] + data;
    if "date" !in base || base["date"] == "" then base["date" := nowIso] else base
  }

  datatype Added = Added(written: Written, id: string)

  /**
   * `addDoc`: the collection's documents with one new document at the end;
   * the result carries the generated id.
   */
  function AddDoc(st: Storage, name: string, data: Doc, genId: string, nowIso: string): (r: Added)
    ensures var key := CollectionKey(name);
      var before := GetData(st, key);
      var after := GetData(r.written.storage, key);
      && |after| == |before| + 1
      && after[..|before|] == before
      && after[|before|] == NewDoc(data, genId, nowIso)
    ensures r.id == genId
    ensures r.written.events == [LocalUpdate(Some(CollectionKey(name)))]
  {
    var key := CollectionKey(name);
    var docs := GetData(st, key);
    Added(SetData(st, key, docs + [NewDoc(data, genId, nowIso)]), genId)
  }

  /** `d.id === id`. */
  predicate HasId(d: Doc, id: string) {
    "id" in d && d["id"] == id
  }

  /** `findIndex` by id. */
  function FindIndex(docs: seq<Doc>, id: string): (r: Option<nat>)
    ensures r.Some? ==> r.value < |docs| && HasId(docs[r.value], id)
    ensures r.Some? ==> forall j :: 0 <= j < r.value ==> !HasId(docs[j], id)
    ensures r.None? ==> forall j :: 0 <= j < |docs| ==> !HasId(docs[j], id)
    decreases |docs|
  {
    if |docs| == 0 then None
    else if HasId(docs[0], id) then Some(0)
    else
      match FindIndex(docs[1..], id)
      case None => None
      case Some(i) => Some(i + 1)
  }

  /**
   * `updateDoc`: the first document with the id takes the given fields over
   * its own; without such a document nothing is written.
   */
  function UpdateDoc(st: Storage, name: string, id: string, data: Doc): (w: Written)
    ensures var key := CollectionKey(name);
      var before := GetData(st, key);
      match FindIndex(before, id)
      case None => w == Written(st, [])
      case Some(i) =>
        var after := GetData(w.storage, key);
        && |after| == |before|
        && (forall j :: 0 <= j < |before| && j != i ==> after[j] == before[j])
        && after[i].Keys == before[i].Keys + data.Keys
        && (forall k :: k in data ==> after[i][k] == data[k])
        && (forall k :: k in before[i] && k !in data ==> after[i][k] == before[i][k])
        && w.events == [LocalUpdate(Some(key))]
  {
    var key := CollectionKey(name);
    var docs := GetData(st, key);
    match FindIndex(docs, id)
    case None => Written(st, [])
    case Some(i) => SetData(st, key, docs[i := docs[i] + data])
  }

  /** `deleteDoc`: exactly the documents with another id stay, in order; the list is always written. */
  function DeleteDoc(st: Storage, name: string, id: string): (w: Written)
    ensures var key := CollectionKey(name);
      var before := GetData(st, key);
      var after := GetData(w.storage, key);
      && (forall d :: d in after <==> d in before && !HasId(d, id))
      && (forall d :: multiset(after)[d] == if HasId(d, id) then 0 else multiset(before)[d])
      && IsSubsequence(after, before)
      && w.events == [LocalUpdate(Some(key))]
  {
    var key := CollectionKey(name);
    SetData(st, key, Filter(GetData(st, key), (d: Doc) => !HasId(d, id)))
  }

  /** Each operation touches only its own collection's key. */
  lemma OperationsStayInCollection(st: Storage, name: string, other: string, id: string, data: Doc, genId: string, nowIso: string)
    requires other != CollectionKey(name)
    ensures GetData(AddDoc(st, name, data, genId, nowIso).written.storage, other) == GetData(st, other)
    ensures GetData(UpdateDoc(st, name, id, data).storage, other) == GetData(st, other)
    ensures GetData(DeleteDoc(st, name, id).storage, other) == GetData(st, other)
  {
  }

  // ---------------------------------------------------------------------
  // queries and listeners

  /** An `orderBy` constraint. */
  datatype Constraint = OrderBy(field: string, dir: Direction)

  /** `orderBy(field, direction = 'asc')`. */
  function MakeOrderBy(field: string, dir: Option<Direction>): (c: Constraint)
    ensures c.field == field
    ensures c.dir == dir.GetOr(Asc)
    ensures dir.None? ==> c.dir == Asc
  {
    OrderBy(field, dir.GetOr(Asc))
  }

  /** A collection reference, or a query over one with its constraints. */
  datatype Query = Query(name: string, constraints: seq<Constraint>)

  /** One document as the snapshot callback sees it. */
  datatype SnapshotDoc = SnapshotDoc(id: Option<string>, data: Doc)

  /** What the listener hands to the callback: the documents, ordered by the first `orderBy` if any. */
  function Snapshot(st: Storage, q: Query): (r: seq<SnapshotDoc>)
    ensures |r| == |GetData(st, CollectionKey(q.name))|
    ensures forall i :: 0 <= i < |r| ==> r[i].id == Key(r[i].data, "id")
    ensures |q.constraints| == 0 ==> forall i :: 0 <= i < |r| ==> r[i].data == GetData(st, CollectionKey(q.name))[i]
  {
    var docs := GetData(st, CollectionKey(q.name));
    var ordered := if |q.constraints| == 0 then docs else Sort(docs, q.constraints[0].field, q.constraints[0].dir);
    seq(|ordered|, i requires 0 <= i < |ordered| => SnapshotDoc(Key(ordered[i], "id"), ordered[i]))
  }

  /** The documents of a snapshot. */
  function SnapshotData(r: seq<SnapshotDoc>): (docs: seq<Doc>)
    ensures |docs| == |r|
  {
    seq(|r|, i requires 0 <= i < |r| => r[i].data)
  }

  /**
   * A snapshot holds the stored documents, each as often as stored; under an
   * `orderBy` on a field every document carries, they come in that field's
   * order.
   */
  lemma SnapshotOrdered(st: Storage, q: Query)
    ensures multiset(SnapshotData(Snapshot(st, q))) == multiset(GetData(st, CollectionKey(q.name)))
    ensures |q.constraints| == 0 ==> SnapshotData(Snapshot(st, q)) == GetData(st, CollectionKey(q.name))
    ensures |q.constraints| > 0 && HasField(GetData(st, CollectionKey(q.name)), q.constraints[0].field) ==>
      Sorted(SnapshotData(Snapshot(st, q)), q.constraints[0].field, q.constraints[0].dir)
  {
    var docs := GetData(st, CollectionKey(q.name));
    var ordered := if |q.constraints| == 0 then docs else Sort(docs, q.constraints[0].field, q.constraints[0].dir);
    assert SnapshotData(Snapshot(st, q)) == ordered;
    if |q.constraints| > 0 && HasField(docs, q.constraints[0].field) {
      SortSorted(docs, q.constraints[0].field, q.constraints[0].dir);
    }
  }

  /** A listener registered by `onSnapshot` for one storage key, until unsubscribed. */
  datatype Listener = Listener(key: string, active: bool)

  /** What reaches a listener: a window event, or the unsubscribe call. */
  datatype Signal = Event(ev: StoreEvent) | Unsubscribe

  /** What `onSnapshot` sets up: the registered listener, and the snapshot its initial call hands to the callback. */
  datatype Subscription = Subscription(listener: Listener, initial: seq<SnapshotDoc>)

  /**
   * `onSnapshot`: the listener runs once straight away on the stored
   * documents, then stays registered for the query's key.
   */
  function Subscribe(st: Storage, q: Query): (r: Subscription)
    ensures r.listener.active && r.listener.key == CollectionKey(q.name)
    ensures multiset(SnapshotData(r.initial)) == multiset(GetData(st, CollectionKey(q.name)))
    ensures |q.constraints| == 0 ==> SnapshotData(r.initial) == GetData(st, CollectionKey(q.name))
  {
    SnapshotOrdered(st, q);
    Subscription(Listener(CollectionKey(q.name), true), Snapshot(st, q))
  }

  /** Whether a signal makes the listener run, and the listener afterwards. */
  function Deliver(l: Listener, s: Signal): (r: (Listener, bool))
    ensures r.1 ==> l.active && s.Event?
    ensures s.Unsubscribe? ==> !r.0.active
    ensures s.Event? ==> r.0 == l
  {
    match s
    case Unsubscribe => (l.(active := false), false)
    case Event(ev) => (l, l.active && ev.key == Some(l.key))
  }

  /** For each signal in turn, whether the listener ran. */
  function Run(l: Listener, signals: seq<Signal>): (fired: seq<bool>)
    ensures |fired| == |signals|
    decreases |signals|
  {
    if |signals| == 0 then []
    else
      var (next, ran) := Deliver(l, signals[0]);
      [ran] + Run(next, signals[1..])
  }

  /**
   * After the initial call, the listener runs for exactly the events that
   * carry its key and come before any unsubscribe.
   */
  lemma {:induction false} RunFiresOnKey(l: Listener, signals: seq<Signal>)
    ensures forall i :: 0 <= i < |signals| ==>
      (Run(l, signals)[i] <==>
        && l.active
        && Unsubscribe !in signals[..i]
        && signals[i].Event?
        && signals[i].ev.key == Some(l.key))
    decreases |signals|
  {
    if |signals| > 0 {
      var (next, ran) := Deliver(l, signals[0]);
      RunFiresOnKey(next, signals[1..]);
      forall i | 0 < i < |signals|
        ensures signals[..i] == [signals[0]] + signals[1..][..i - 1]
      {
      }
      if signals[0].Unsubscribe? {
        forall i | 0 < i < |signals|
          ensures Unsubscribe in signals[..i]
        {
          assert signals[..i][0] == Unsubscribe;
        }
      }
    }
  }

  /**
   * Whether the callback runs, from subscribing on: once for the initial
   * call, then once for each signal that carries the collection's key and
   * comes before any unsubscribe.
   */
  function Listen(st: Storage, q: Query, signals: seq<Signal>): (fired: seq<bool>)
    ensures |fired| == |signals| + 1
    ensures fired[0]
    ensures forall i :: 0 <= i < |signals| ==>
      (fired[i + 1] <==>
        && Unsubscribe !in signals[..i]
        && signals[i].Event?
        && signals[i].ev.key == Some(CollectionKey(q.name)))
  {
    var l := Subscribe(st, q).listener;
    RunFiresOnKey(l, signals);
    [true] + Run(l, signals)
  }

  /**
   * A write through the store reaches exactly the listeners of the collection
   * it wrote: every event that adding, updating or deleting dispatches runs a
   * fresh subscription exactly when it watches that collection. Adding and
   * deleting always dispatch one event; updating does so only on a match.
   */
  lemma WriteReachesOwnListeners(st: Storage, name: string, id: string, data: Doc, genId: string, nowIso: string,
                                 q: Query)
    ensures forall e :: e in AddDoc(st, name, data, genId, nowIso).written.events ==>
      (Deliver(Subscribe(st, q).listener, Event(e)).1 <==> q.name == name)
    ensures forall e :: e in UpdateDoc(st, name, id, data).events ==>
      (Deliver(Subscribe(st, q).listener, Event(e)).1 <==> q.name == name)
    ensures forall e :: e in DeleteDoc(st, name, id).events ==>
      (Deliver(Subscribe(st, q).listener, Event(e)).1 <==> q.name == name)
    ensures |AddDoc(st, name, data, genId, nowIso).written.events| == 1
    ensures |DeleteDoc(st, name, id).events| == 1
    ensures |UpdateDoc(st, name, id, data).events| == 1 <==> FindIndex(GetData(st, CollectionKey(name)), id).Some?
  {
    CollectionKeyInjective(q.name, name);
  }

}

=== FILE: documents.dfy ===
/**
 * Documents of the mock document store and the order `onSnapshot` puts them
 * in: JavaScript's comparator over one field, applied by a stable sort.
 */
module Documents {
  import opened Wrappers
  import opened Text

  /** A stored document: field names to string values. */
  type Doc = map<string, string>

  /** `d[field]`; `None` stands for `undefined`. */
  function Key(d: Doc, field: string): Option<string> {
    if field in d then Some(d[field]) else None
  }

  datatype Direction = Asc | Desc

  /**
   * The comparator handed to `data.sort`: `undefined` compares as neither
   * smaller nor larger than anything, so it yields 0.
   */
  function Compare(a: Doc, b: Doc, field: string, dir: Direction): (c: int)
    ensures c in {-1, 0, 1}
    ensures c != 0 ==> Key(a, field).Some? && Key(b, field).Some?
    ensures Key(a, field).Some? && Key(b, field).Some? ==>
      (c == 0 <==> Key(a, field) == Key(b, field))
  {
    var va := Key(a, field);
    var vb := Key(b, field);
    if va.Some? && vb.Some? && va.value != vb.value then
      LessTotal(va.value, vb.value);
      if Less(va.value, vb.value) then (if dir == Asc then -1 else 1)
      else (if dir == Asc then 1 else -1)
    else
      0
  }

  /** `a` may come before `b`. */
  predicate Before(a: Doc, b: Doc, field: string, dir: Direction) {
    Compare(a, b, field, dir) <= 0
  }

  predicate HasField(s: seq<Doc>, field: string) {
    forall i :: 0 <= i < |s| ==> field in s[i]
  }

  /** Every earlier document may come before every later one. */
  predicate Sorted(s: seq<Doc>, field: string, dir: Direction) {
    forall i, j :: 0 <= i < j < |s| ==> Before(s[i], s[j], field, dir)
  }

  /** Between documents that carry the field, the comparator orders everything. */
  lemma BeforeTotal(a: Doc, b: Doc, field: string, dir: Direction)
    requires field in a && field in b
    ensures Before(a, b, field, dir) || Before(b, a, field, dir)
    ensures !Before(a, b, field, dir) ==> Compare(b, a, field, dir) == -1
  {
    if a[field] != b[field] {
      LessTotal(a[field], b[field]);
      if Less(a[field], b[field]) {
        LessAsymmetric(a[field], b[field]);
      } else {
        LessAsymmetric(b[field], a[field]);
      }
    }
  }

  /** Between documents that carry the field, "may come before" is "not greater" (or "not smaller"). */
  lemma BeforeIff(a: Doc, b: Doc, field: string, dir: Direction)
    requires field in a && field in b
    ensures dir == Asc ==> (Before(a, b, field, dir) <==> !Less(b[field], a[field]))
    ensures dir == Desc ==> (Before(a, b, field, dir) <==> !Less(a[field], b[field]))
  {
    if a[field] != b[field] {
      LessTotal(a[field], b[field]);
      if Less(a[field], b[field]) {
        LessAsymmetric(a[field], b[field]);
      } else {
        LessAsymmetric(b[field], a[field]);
      }
    } else {
      LessIrreflexive(a[field]);
    }
  }

  lemma BeforeTransitive(a: Doc, b: Doc, c: Doc, field: string, dir: Direction)
    requires field in a && field in b && field in c
    requires Before(a, b, field, dir) && Before(b, c, field, dir)
    ensures Before(a, c, field, dir)
  {
    BeforeIff(a, b, field, dir);
    BeforeIff(b, c, field, dir);
    BeforeIff(a, c, field, dir);
    if dir == Asc {
      NotLessTransitive(a[field], b[field], c[field]);
    } else {
      NotLessTransitive(c[field], b[field], a[field]);
    }
  }

  /**
   * One insertion step: `x` goes before the first document it may precede,
   * which keeps documents that compare equal in their original order.
   */
  function Insert(x: Doc, s: seq<Doc>, field: string, dir: Direction): (r: seq<Doc>)
    ensures multiset(r) == multiset(s) + multiset{x}
    ensures |r| == |s| + 1
    decreases |s|
  {
    if |s| == 0 then [x]
    else if Before(x, s[0], field, dir) then [x] + s
    else
      assert s == [s[0]] + s[1..];
      [s[0]] + Insert(x, s[1..], field, dir)
  }

  /** `data.sort(comparator)`, modelled as a stable insertion sort. */
  function Sort(s: seq<Doc>, field: string, dir: Direction): (r: seq<Doc>)
    ensures multiset(r) == multiset(s)
    ensures |r| == |s|
    decreases |s|
  {
    if |s| == 0 then []
    else
      assert s == [s[0]] + s[1..];
      Insert(s[0], Sort(s[1..], field, dir), field, dir)
  }

  /** Putting a document in front of a sorted list it may precede keeps the list sorted. */
  lemma InsertFrontSorted(x: Doc, s: seq<Doc>, field: string, dir: Direction)
    requires |s| > 0 && field in x && HasField(s, field) && Sorted(s, field, dir)
    requires Before(x, s[0], field, dir)
    ensures Sorted([x] + s, field, dir)
  {
    var r := [x] + s;
    forall i, j | 0 <= i < j < |r|
      ensures Before(r[i], r[j], field, dir)
    {
      if i == 0 && j > 1 {
        BeforeTransitive(x, s[0], s[j - 1], field, dir);
      }
    }
  }

  /** The head of a sorted list may precede everything the rest turns into after inserting `x`. */
  lemma HeadBeforeInsert(x: Doc, s: seq<Doc>, field: string, dir: Direction)
    requires |s| > 0 && Sorted(s, field, dir) && Before(s[0], x, field, dir)
    ensures forall j :: 0 <= j < |Insert(x, s[1..], field, dir)| ==>
      Before(s[0], Insert(x, s[1..], field, dir)[j], field, dir)
  {
    var rest := Insert(x, s[1..], field, dir);
    forall j | 0 <= j < |rest|
      ensures Before(s[0], rest[j], field, dir)
    {
      assert rest[j] in multiset(rest);
      assert rest[j] == x || rest[j] in multiset(s[1..]);
      if rest[j] != x {
        var k :| 0 <= k < |s[1..]| && s[1..][k] == rest[j];
        assert Before(s[0], s[k + 1], field, dir);
      }
    }
  }

  lemma {:induction false} InsertSorted(x: Doc, s: seq<Doc>, field: string, dir: Direction)
    requires field in x && HasField(s, field) && Sorted(s, field, dir)
    ensures Sorted(Insert(x, s, field, dir), field, dir)
    decreases |s|
  {
    if |s| > 0 {
      if Before(x, s[0], field, dir) {
        InsertFrontSorted(x, s, field, dir);
      } else {
        BeforeTotal(x, s[0], field, dir);
        var rest := Insert(x, s[1..], field, dir);
        InsertSorted(x, s[1..], field, dir);
        HeadBeforeInsert(x, s, field, dir);
        var r := [s[0]] + rest;
        forall i, j | 0 <= i < j < |r|
          ensures Before(r[i], r[j], field, dir)
        {
          if i > 0 {
            assert r[i] == rest[i - 1] && r[j] == rest[j - 1];
          } else {
            assert r[j] == rest[j - 1];
          }
        }
      }
    }
  }


  lemma {:induction false} SortKeepsField(s: seq<Doc>, field: string, dir: Direction)
    requires HasField(s, field)
    ensures HasField(Sort(s, field, dir), field)
  {
    var r := Sort(s, field, dir);
    forall i | 0 <= i < |r|
      ensures field in r[i]
    {
      assert r[i] in multiset(r);
      var k :| 0 <= k < |s| && s[k] == r[i];
    }
  }

  /**
   * When every document carries the field, the sorted documents are in
   * ascending (or descending) string order of that field.
   */
  lemma {:induction false} SortSorted(s: seq<Doc>, field: string, dir: Direction)
    requires HasField(s, field)
    ensures Sorted(Sort(s, field, dir), field, dir)
    ensures HasField(Sort(s, field, dir), field)
    ensures dir == Asc ==> forall i, j :: 0 <= i < j < |s| ==>
      !Less(Sort(s, field, dir)[j][field], Sort(s, field, dir)[i][field])
    ensures dir == Desc ==> forall i, j :: 0 <= i < j < |s| ==>
      !Less(Sort(s, field, dir)[i][field], Sort(s, field, dir)[j][field])
    decreases |s|
  {
    if |s| > 0 {
      SortSorted(s[1..], field, dir);
      SortKeepsField(s[1..], field, dir);
      InsertSorted(s[0], Sort(s[1..], field, dir), field, dir);
    }
    var r := Sort(s, field, dir);
    SortKeepsField(s, field, dir);
    forall i, j | 0 <= i < j < |r|
      ensures dir == Asc ==> !Less(r[j][field], r[i][field])
      ensures dir == Desc ==> !Less(r[i][field], r[j][field])
    {
      assert Before(r[i], r[j], field, dir);
      BeforeIff(r[i], r[j], field, dir);
    }
  }
}

=== FILE: gate.dfy ===
/**
 * The access gate of the application shell: which one of the admin panel,
 * the maintenance screen or the public site is shown, decided from the URL
 * fragment and the shared maintenance flag, re-decided on mount, on every
 * `hashchange` and on a one-second poll.
 */
module AccessGate {
  import opened Wrappers
  import opened Text
  import Recovery

  /** The fragment marker of the admin entry point. */
  const AdminMarker := "secure-admin-login"

  /** What one status check reads: the current `location.hash` and the stored flag text. */
  datatype Snapshot = Snapshot(hash: string, flag: Option<string>)

  /** The two guard flags of the shell. */
  datatype Guard = Guard(isAdminPortal: bool, isMaintenanceMode: bool)

  datatype Mode = Admin | Maintenance | Normal

  /** The render order: admin first, then maintenance, then the public site. */
  function ModeOf(g: Guard): Mode {
    if g.isAdminPortal then Admin
    else if g.isMaintenanceMode then Maintenance
    else Normal
  }

  /**
   * The status check. Both guard flags are written on every path, so the
   * result depends on the snapshot alone and never on the previous guard.
   */
  function CheckSystemStatus(snap: Snapshot): (g: Guard)
    ensures !(g.isAdminPortal && g.isMaintenanceMode)
  {
    if Includes(snap.hash, AdminMarker) then
      Guard(true, false)
    else
      Guard(false, Recovery.FlagOn(snap.flag))
  }

  /** The mode a snapshot selects. */
  function Decide(snap: Snapshot): Mode {
    ModeOf(CheckSystemStatus(snap))
  }

  /** Admin immunity: a fragment containing the marker selects the admin panel whatever the flag says. */
  lemma AdminImmunity(hash: string, flag: Option<string>)
    requires Includes(hash, AdminMarker)
    ensures Decide(Snapshot(hash, flag)) == Admin
    ensures !CheckSystemStatus(Snapshot(hash, flag)).isMaintenanceMode
  {
  }

  /** Extra text around the marker ("dirty" URLs) does not matter. */
  lemma DirtyHashIsAdmin(pre: string, post: string, flag: Option<string>)
    ensures Decide(Snapshot(pre + AdminMarker + post, flag)) == Admin
  {
    assert OccursAt(AdminMarker, AdminMarker, 0);
    IncludesExtended(pre, AdminMarker, post, AdminMarker);
  }

  /**
   * The full decision table: admin exactly when the fragment contains the
   * marker; otherwise maintenance exactly when the flag reads "true".
   */
  lemma DecisionTable(snap: Snapshot)
    ensures Decide(snap) == Admin <==> exists i :: OccursAt(snap.hash, AdminMarker, i)
    ensures Decide(snap) == Maintenance <==>
      (forall i :: !OccursAt(snap.hash, AdminMarker, i)) && snap.flag == Some("true")
  {
  }

  /**
   * Fail-open: a missing flag, or any text other than "true", gives the
   * public site unless the fragment asks for the admin panel.
   */
  lemma FailOpen(hash: string, flag: Option<string>)
    requires flag != Some("true")
    requires !Includes(hash, AdminMarker)
    ensures Decide(Snapshot(hash, flag)) == Normal
  {
  }

  // ---------------------------------------------------------------------
  // the shell's state and its triggers

  /**
   * The shell: its guard, the public sub-page selector, and whether the
   * `hashchange` listener and the one-second interval are registered.
   */
  datatype AppState = AppState(guard: Guard, currentView: string, hashListener: bool, polling: bool)

  const Initial := AppState(Guard(false, false), "hero", false, false)

  datatype Trigger = Mount | HashChange | Tick | Unmount

  /** Whether the trigger reaches the status check in this state. */
  predicate Live(st: AppState, t: Trigger) {
    match t
    case Mount => true
    case HashChange => st.hashListener
    case Tick => st.polling
    case Unmount => false
  }

  function OnTrigger(st: AppState, t: Trigger, snap: Snapshot): (r: AppState)
    ensures Live(st, t) ==> r.guard == CheckSystemStatus(snap)
    ensures !Live(st, t) ==> r.guard == st.guard
    ensures r.currentView == st.currentView
  {
    match t
    case Mount => st.(guard := CheckSystemStatus(snap), hashListener := true, polling := true)
    case HashChange => if st.hashListener then st.(guard := CheckSystemStatus(snap)) else st
    case Tick => if st.polling then st.(guard := CheckSystemStatus(snap)) else st
    case Unmount => st.(hashListener := false, polling := false)
  }

  /** Every trigger source reaches the same decision: mount, `hashchange` and tick agree. */
  lemma TriggersAgree(st: AppState, t1: Trigger, t2: Trigger, snap: Snapshot)
    requires Live(st, t1) && Live(st, t2)
    ensures OnTrigger(st, t1, snap).guard == OnTrigger(st, t2, snap).guard
  {
  }

  /** Re-running the check on an unchanged snapshot changes nothing. */
  lemma Idempotent(st: AppState, t1: Trigger, t2: Trigger, snap: Snapshot)
    requires Live(st, t1)
    requires t2 != Unmount
    ensures OnTrigger(OnTrigger(st, t1, snap), t2, snap).guard == OnTrigger(st, t1, snap).guard
  {
  }

  /** After unmount no listener is left, so no later trigger but a new mount changes the guard. */
  lemma UnmountSilences(st: AppState, t: Trigger, snap: Snapshot)
    requires t != Mount
    ensures OnTrigger(OnTrigger(st, Unmount, snap), t, snap).guard == st.guard
  {
  }

  /** Starting from the initial state, the two guard flags are never both on. */
  lemma {:induction false} GuardExclusive(ts: seq<Trigger>, snaps: seq<Snapshot>)
    requires |ts| == |snaps|
    ensures var g := Replay(ts, snaps).guard; !(g.isAdminPortal && g.isMaintenanceMode)
    decreases |ts|
  {
    if |ts| > 0 {
      GuardExclusive(ts[..|ts| - 1], snaps[..|ts| - 1]);
    }
  }

  /** The state after a history of triggers, each with the snapshot it read. */
  function Replay(ts: seq<Trigger>, snaps: seq<Snapshot>): AppState
    requires |ts| == |snaps|
    decreases |ts|
  {
    if |ts| == 0 then Initial
    else OnTrigger(Replay(ts[..|ts| - 1], snaps[..|ts| - 1]), ts[|ts| - 1], snaps[|ts| - 1])
  }

  // ---------------------------------------------------------------------
  // rendering and navigation

  datatype Page =
    | AdminPanelPage | MaintenancePage
    | TermsPage | HowItWorksPage | ApplicationPage | PaymentPage | HomePage

  /** The public sub-page: four named views, anything else is the home page. */
  function NormalPage(view: string): Page {
    if view == "terms" then TermsPage
    else if view == "howItWorks" then HowItWorksPage
    else if view == "application" then ApplicationPage
    else if view == "payment" then PaymentPage
    else HomePage
  }

  /** Exactly one view, chosen admin first, then maintenance, then the public sub-page. */
  function Render(st: AppState): (p: Page)
    ensures st.guard.isAdminPortal ==> p == AdminPanelPage
    ensures !st.guard.isAdminPortal && st.guard.isMaintenanceMode ==> p == MaintenancePage
    ensures !st.guard.isAdminPortal && !st.guard.isMaintenanceMode ==> p == NormalPage(st.currentView)
    ensures p == AdminPanelPage <==> st.guard.isAdminPortal
    ensures p == MaintenancePage <==> !st.guard.isAdminPortal && st.guard.isMaintenanceMode
  {
    match ModeOf(st.guard)
    case Admin => AdminPanelPage
    case Maintenance => MaintenancePage
    case Normal => NormalPage(st.currentView)
  }

  /** The sub-page selector shows a named page exactly for the four known views. */
  lemma NormalPageChoice(view: string)
    ensures NormalPage(view) != HomePage <==>
      view in {"terms", "howItWorks", "application", "payment"}
    ensures NormalPage(view) != AdminPanelPage && NormalPage(view) != MaintenancePage
  {
  }

  /** A link of the public site (`setCurrentView`). */
  function Navigate(st: AppState, view: string): AppState {
    st.(currentView := view)
  }

  /** Every public sub-page's back button returns to the home page. */
  function SubPageBack(st: AppState): (r: AppState)
    ensures r.guard == st.guard
    ensures ModeOf(r.guard) == Normal ==> Render(r) == HomePage
  {
    st.(currentView := "hero")
  }

  /** The admin panel's back action: the fragment is cleared and the sub-page reset. */
  function AdminBack(st: AppState, snap: Snapshot): (r: (AppState, Snapshot))
    ensures r.1.flag == snap.flag && !Includes(r.1.hash, AdminMarker)
    ensures r.0.currentView == "hero" && r.0.guard == st.guard
  {
    (st.(currentView := "hero"), snap.(hash := ""))
  }

  /**
   * Leaving the admin panel: the next check shows the maintenance screen
   * exactly when the flag reads "true", and the home page otherwise.
   */
  lemma AdminBackThenCheck(st: AppState, snap: Snapshot, t: Trigger)
    requires t != Unmount
    requires Live(AdminBack(st, snap).0, t)
    ensures var b := AdminBack(st, snap);
      Render(OnTrigger(b.0, t, b.1)) == if Recovery.FlagOn(snap.flag) then MaintenancePage else HomePage
  {
  }

  // ---------------------------------------------------------------------
  // page loads caused by the maintenance screen

  /**
   * `h` is the fragment of `url`: the suffix from the first '#', or empty
   * when there is no '#' or nothing follows it.
   */
  predicate FragmentOf(url: string, h: string) {
    && |h| <= |url|
    && (h != "" ==> |h| >= 2 && h[0] == '#' && url[|url| - |h|..] == h && '#' !in url[..|url| - |h|])
    && (h == "" && '#' in url ==> url[|url| - 1] == '#' && '#' !in url[..|url| - 1])
  }

  /** A character other than '#' in front of a URL leaves its fragment alone. */
  lemma FragmentOfCons(url: string, h: string)
    requires |url| > 0 && url[0] != '#' && FragmentOf(url[1..], h)
    ensures FragmentOf(url, h)
    ensures '#' !in url[1..] ==> '#' !in url
  {
    var t := url[1..];
    assert url == [url[0]] + t;
    if h != "" {
      assert url[|url| - |h|..] == t[|t| - |h|..];
      assert url[..|url| - |h|] == [url[0]] + t[..|t| - |h|];
    } else if '#' in url {
      assert url[..|url| - 1] == [url[0]] + t[..|t| - 1];
    }
  }

  /** A URL that starts with '#' is all fragment, unless that '#' is all there is. */
  lemma FragmentOfHashFirst(url: string)
    requires |url| > 0 && url[0] == '#'
    ensures FragmentOf(url, if |url| == 1 then "" else url)
  {
    assert url[..0] == [];
  }

  /** `location.hash` of a URL: from its first '#', or empty when there is none or nothing follows it. */
  function HashOf(url: string): (h: string)
    ensures '#' !in url ==> h == ""
    ensures FragmentOf(url, h)
    decreases |url|
  {
    if |url| == 0 then ""
    else if url[0] == '#' then
      FragmentOfHashFirst(url);
      if |url| == 1 then "" else url
    else
      var h := HashOf(url[1..]);
      FragmentOfCons(url, h);
      h
  }

  /** A fresh page load: a new shell mounted on the given snapshot. */
  function Load(hash: string, flag: Option<string>): AppState {
    OnTrigger(Initial, Mount, Snapshot(hash, flag))
  }

  /**
   * The manual refresh reloads the same URL and decides afresh, whatever was
   * shown before: the admin panel when the fragment carries the marker,
   * otherwise the maintenance screen while the flag reads on, otherwise the
   * home page.
   */
  lemma RefreshDecidesAfresh(hash: string, flag: Option<string>)
    ensures Render(Load(hash, flag)) ==
      if Includes(hash, AdminMarker) then AdminPanelPage
      else if Recovery.FlagOn(flag) then MaintenancePage
      else HomePage
    ensures Load(hash, flag).currentView == "hero"
  {
  }

  /**
   * The recovery redirect lands on a URL without a fragment: the freshly
   * loaded shell shows the home page if the flag still reads off, and the
   * maintenance screen again if it was switched back on meanwhile.
   */
  lemma RecoveryLandsOnHome(now: nat, flag: Option<string>)
    ensures var url := Recovery.RecoveryUrl(now);
      Render(Load(HashOf(url), flag)) == if Recovery.FlagOn(flag) then MaintenancePage else HomePage
  {
    var url := Recovery.RecoveryUrl(now);
    assert HashOf(url) == "";
    assert !Includes("", AdminMarker);
    RefreshDecidesAfresh(HashOf(url), flag);
  }
}

=== FILE: loanform.dfy ===
/**
 * The two-step loan application form: field edits with live validation of
 * mobile numbers and uploaded files, the step-1 and submit checks, and the
 * record a successful submission puts in front of the stored list.
 */
module LoanForm {
  import opened Wrappers
  import opened Text
  import opened Numeric
  import opened Records

  // ---------------------------------------------------------------------
  // the mobile-number check /^09\d{9}$/

  /** One position of an anchored pattern: a fixed character or any decimal digit. */
  datatype CharClass = Lit(ch: char) | AnyDigit

  predicate ClassMatches(k: CharClass, c: char) {
    if k.Lit? then c == k.ch else IsDigit(c)
  }

  /** Whole-string match of a pattern made of single-character classes. */
  predicate Matches(s: string, p: seq<CharClass>)
    decreases |p|
  {
    if |p| == 0 then |s| == 0
    else |s| > 0 && ClassMatches(p[0], s[0]) && Matches(s[1..], p[1..])
  }

  /** The pattern `^09\d{9}$`. */
  const PhonePattern: seq<CharClass> := [Lit('0'), Lit('9'),
    AnyDigit, AnyDigit, AnyDigit, AnyDigit, AnyDigit, AnyDigit, AnyDigit, AnyDigit, AnyDigit]

  /** `validatePhone`. */
  function ValidatePhone(s: string): bool {
    Matches(s, PhonePattern)
  }

  lemma {:induction false} MatchesPointwise(s: string, p: seq<CharClass>)
    ensures Matches(s, p) <==>
      |s| == |p| && forall i :: 0 <= i < |s| ==> ClassMatches(p[i], s[i])
    decreases |p|
  {
    if |p| > 0 && |s| > 0 {
      MatchesPointwise(s[1..], p[1..]);
      if |s| == |p| && ClassMatches(p[0], s[0]) && Matches(s[1..], p[1..]) {
        forall i | 0 <= i < |s|
          ensures ClassMatches(p[i], s[i])
        {
          if i > 0 {
            assert s[1..][i - 1] == s[i];
          }
        }
      }
    }
  }

  /** The shape of a valid mobile number: "09" followed by nine digits. */
  predicate PhoneShape(s: string) {
    |s| == 11 && s[..2] == "09" && AllDigits(s[2..])
  }

  lemma ShapedPhoneMatches(s: string)
    requires PhoneShape(s)
    ensures ValidatePhone(s)
  {
    MatchesPointwise(s, PhonePattern);
    forall i | 0 <= i < 11
      ensures ClassMatches(PhonePattern[i], s[i])
    {
      if i >= 2 {
        assert s[2..][i - 2] == s[i];
      } else {
        assert s[..2][i] == s[i];
      }
    }
  }

  lemma MatchingPhoneShaped(s: string)
    requires ValidatePhone(s)
    ensures PhoneShape(s)
  {
    MatchesPointwise(s, PhonePattern);
    assert ClassMatches(PhonePattern[0], s[0]) && PhonePattern[0] == Lit('0');
    assert ClassMatches(PhonePattern[1], s[1]) && PhonePattern[1] == Lit('9');
    assert s[..2] == [s[0], s[1]];
    forall i | 0 <= i < |s[2..]|
      ensures IsDigit(s[2..][i])
    {
      assert ClassMatches(PhonePattern[i + 2], s[i + 2]);
    }
  }

  /** A valid mobile number is "09" followed by exactly nine digits: eleven characters in all. */
  lemma ValidatePhoneIff(s: string)
    ensures ValidatePhone(s) <==> |s| == 11 && s[..2] == "09" && AllDigits(s[2..])
  {
    if PhoneShape(s) {
      ShapedPhoneMatches(s);
    }
    if ValidatePhone(s) {
      MatchingPhoneShaped(s);
    }
  }

  // ---------------------------------------------------------------------
  // the file check

  /** What the form sees of an uploaded file. */
  datatype FileInfo = FileInfo(name: string, mimeType: string, size: nat)

  const ValidTypes: set<string> := {"image/jpeg", "image/png", "application/pdf"}
  const MaxFileSize: nat := 5 * 1024 * 1024
  const InvalidTypeMessage := "Invalid file type. Only JPG, PNG, and PDF are allowed."
  const TooLargeMessage := "File size exceeds 5MB limit."

  /** `validateFile`: the type check comes first, then the size limit. */
  function ValidateFile(f: FileInfo): (err: Option<string>) {
    if f.mimeType !in ValidTypes then Some(InvalidTypeMessage)
    else if f.size > MaxFileSize then Some(TooLargeMessage)
    else None
  }

  /**
   * A file is accepted exactly when its type is JPEG, PNG or PDF and it is at
   * most 5 MiB (5 MiB itself is accepted); a bad type is reported even for an
   * oversized file.
   */
  lemma ValidateFileIff(f: FileInfo)
    ensures ValidateFile(f) == None <==>
      f.mimeType in {"image/jpeg", "image/png", "application/pdf"} && f.size <= 5242880
    ensures f.mimeType !in ValidTypes ==> ValidateFile(f) == Some(InvalidTypeMessage)
    ensures f.mimeType in ValidTypes && f.size == 5242881 ==> ValidateFile(f) == Some(TooLargeMessage)
  {
  }

  // ---------------------------------------------------------------------
  // form state

  /** The inputs of the form, by their `name` attribute. */
  datatype Field =
    | Name | SchoolId | Course | Address | Phone | Email
    | LoanPurpose | LoanAmount | DisbursementMethod | WalletNumber
    | CorFile | SchoolIdFile | Signature
  {
    /** Inputs whose change handler receives text. */
    predicate IsText() {
      !(this == CorFile || this == SchoolIdFile || this == Signature)
    }
    predicate IsFile() {
      this == CorFile || this == SchoolIdFile
    }
  }

  type TextField = f: Field | f.IsText() witness Name
  type FileField = f: Field | f.IsFile() witness CorFile

  datatype FormData = FormData(
    name: string, schoolId: string, course: string, address: string,
    phone: string, email: string, loanPurpose: string, loanAmount: string,
    disbursementMethod: string, walletNumber: string,
    corFile: Option<FileInfo>, schoolIdFile: Option<FileInfo>, signature: string)

  const EmptyForm := FormData("", "", "", "", "", "", "", "", "", "", None, None, "")

  function TextOf(d: FormData, f: TextField): string {
    match f
    case Name => d.name
    case SchoolId => d.schoolId
    case Course => d.course
    case Address => d.address
    case Phone => d.phone
    case Email => d.email
    case LoanPurpose => d.loanPurpose
    case LoanAmount => d.loanAmount
    case DisbursementMethod => d.disbursementMethod
    case WalletNumber => d.walletNumber
  }

  function WithText(d: FormData, f: TextField, v: string): (r: FormData)
    ensures TextOf(r, f) == v
    ensures forall g: TextField :: g != f ==> TextOf(r, g) == TextOf(d, g)
    ensures r.corFile == d.corFile && r.schoolIdFile == d.schoolIdFile && r.signature == d.signature
  {
    match f
    case Name => d.(name := v)
    case SchoolId => d.(schoolId := v)
    case Course => d.(course := v)
    case Address => d.(address := v)
    case Phone => d.(phone := v)
    case Email => d.(email := v)
    case LoanPurpose => d.(loanPurpose := v)
    case LoanAmount => d.(loanAmount := v)
    case DisbursementMethod => d.(disbursementMethod := v)
    case WalletNumber => d.(walletNumber := v)
  }

  function FileOf(d: FormData, f: FileField): Option<FileInfo> {
    if f == CorFile then d.corFile else d.schoolIdFile
  }

  function WithFile(d: FormData, f: FileField, v: Option<FileInfo>): (r: FormData)
    ensures FileOf(r, f) == v
    ensures forall g: FileField :: g != f ==> FileOf(r, g) == FileOf(d, g)
    ensures forall g: TextField :: TextOf(r, g) == TextOf(d, g)
    ensures r.signature == d.signature
  {
    if f == CorFile then d.(corFile := v) else d.(schoolIdFile := v)
  }

  type Errors = map<Field, string>

  datatype FormState = FormState(submitted: bool, step: int, errors: Errors, data: FormData)

  const Fresh := FormState(false, 1, map[], EmptyForm)

  const PhoneMessage := "Please enter a valid 11-digit mobile number starting with 09."

  /** Drops the error of one field, if any. */
  function ClearError(errors: Errors, f: Field): (r: Errors)
    ensures f !in r
    ensures forall g :: g != f ==> (g in r <==> g in errors) && (g in r ==> r[g] == errors[g])
  {
    errors - {f}
  }

  // ---------------------------------------------------------------------
  // edits

  /** The error-map update of `handleChange`. */
  function ChangeErrors(errors: Errors, f: TextField, value: string): (r: Errors)
    ensures forall g :: g != f ==> (g in r <==> g in errors)
    ensures forall g :: g != f && g in r ==> g in errors && r[g] == errors[g]
    ensures (f == Phone || f == WalletNumber) ==>
      (f in r <==> value != "" && !ValidatePhone(value))
    ensures (f == Phone || f == WalletNumber) && f in r ==> r[f] == PhoneMessage
    ensures !(f == Phone || f == WalletNumber) && f in errors && errors[f] != "" ==> f !in r
    ensures !(f == Phone || f == WalletNumber) && !(f in errors && errors[f] != "") ==> r == errors
  {
    if f == Phone || f == WalletNumber then
      if value != "" && !ValidatePhone(value) then errors[f := PhoneMessage]
      else ClearError(errors, f)
    else if f in errors && errors[f] != "" then ClearError(errors, f)
    else errors
  }

  /** `handleChange` for a text input: only the named field and its error change. */
  function HandleChange(st: FormState, f: TextField, value: string): (r: FormState)
    ensures TextOf(r.data, f) == value
    ensures forall g: TextField :: g != f ==> TextOf(r.data, g) == TextOf(st.data, g)
    ensures r.data.corFile == st.data.corFile && r.data.schoolIdFile == st.data.schoolIdFile
    ensures r.data.signature == st.data.signature
    ensures r.step == st.step && r.submitted == st.submitted
    ensures r.errors == ChangeErrors(st.errors, f, value)
  {
    st.(data := WithText(st.data, f, value), errors := ChangeErrors(st.errors, f, value))
  }

  /** `handleFileChange`: an empty selection does nothing; otherwise the first file is checked. */
  function HandleFileChange(st: FormState, f: FileField, files: seq<FileInfo>): (r: FormState)
    ensures |files| == 0 ==> r == st
    ensures |files| > 0 && ValidateFile(files[0]).Some? ==>
      FileOf(r.data, f) == None && f in r.errors && r.errors[f] == ValidateFile(files[0]).value
    ensures |files| > 0 && ValidateFile(files[0]).None? ==>
      FileOf(r.data, f) == Some(files[0]) && f !in r.errors
    ensures forall g: FileField :: g != f ==> FileOf(r.data, g) == FileOf(st.data, g)
    ensures forall g: TextField :: TextOf(r.data, g) == TextOf(st.data, g)
    ensures forall g :: g != f ==> (g in r.errors <==> g in st.errors)
    ensures forall g :: g != f && g in st.errors ==> g in r.errors && r.errors[g] == st.errors[g]
    ensures r.data.signature == st.data.signature
    ensures r.step == st.step && r.submitted == st.submitted
  {
    if |files| == 0 then
      st
    else
      match ValidateFile(files[0])
      case Some(msg) => st.(errors := st.errors[f := msg], data := WithFile(st.data, f, None))
      case None => st.(errors := ClearError(st.errors, f), data := WithFile(st.data, f, Some(files[0])))
  }

  /** Finishing a stroke on the signature pad stores the drawing and clears its error. */
  function FinishSignature(st: FormState, dataUrl: string): (r: FormState)
    ensures r.data.signature == dataUrl
    ensures Signature in st.errors && st.errors[Signature] != "" ==> Signature !in r.errors
    ensures !(Signature in st.errors && st.errors[Signature] != "") ==> r.errors == st.errors
    ensures forall g :: g != Signature && g in st.errors ==> g in r.errors && r.errors[g] == st.errors[g]
    ensures forall g: TextField :: TextOf(r.data, g) == TextOf(st.data, g)
    ensures forall g: FileField :: FileOf(r.data, g) == FileOf(st.data, g)
    ensures r.step == st.step && r.submitted == st.submitted
  {
    var errors := if Signature in st.errors && st.errors[Signature] != "" then ClearError(st.errors, Signature) else st.errors;
    st.(data := st.data.(signature := dataUrl), errors := errors)
  }

  /** "Clear" on the signature pad empties the signature and leaves errors alone. */
  function ClearSignature(st: FormState): (r: FormState)
    ensures r.data.signature == "" && r.errors == st.errors
    ensures forall g: TextField :: TextOf(r.data, g) == TextOf(st.data, g)
    ensures forall g: FileField :: FileOf(r.data, g) == FileOf(st.data, g)
    ensures r.step == st.step && r.submitted == st.submitted
  {
    st.(data := st.data.(signature := ""))
  }

  // ---------------------------------------------------------------------
  // step 1

  /** Personal details are complete: every text field filled and the phone valid. */
  predicate Step1Complete(d: FormData) {
    d.name != "" && d.schoolId != "" && d.course != "" && d.address != ""
    && ValidatePhone(d.phone) && d.email != ""
  }

  const Step1Fields: set<Field> := {Name, SchoolId, Course, Address, Phone, Email}

  /** Which step-1 field is missing or, for the phone, not a valid number. */
  predicate Step1Missing(d: FormData, f: Field) {
    match f
    case Name => d.name == ""
    case SchoolId => d.schoolId == ""
    case Course => d.course == ""
    case Address => d.address == ""
    case Phone => !ValidatePhone(d.phone)
    case Email => d.email == ""
    case _ => false
  }

  function Step1Message(d: FormData, f: Field): string {
    match f
    case Name => "Full Name is required"
    case SchoolId => "School ID is required"
    case Course => "Course is required"
    case Address => "Address is required"
    case Phone => if d.phone == "" then "Phone number is required" else PhoneMessage
    case Email => "Email is required"
    case _ => ""
  }

  lemma Step1CompleteIff(d: FormData)
    ensures Step1Complete(d) <==> forall f :: !Step1Missing(d, f)
  {
    if !Step1Complete(d) {
      if d.name == "" { assert Step1Missing(d, Name); }
      else if d.schoolId == "" { assert Step1Missing(d, SchoolId); }
      else if d.course == "" { assert Step1Missing(d, Course); }
      else if d.address == "" { assert Step1Missing(d, Address); }
      else if !ValidatePhone(d.phone) { assert Step1Missing(d, Phone); }
      else { assert Step1Missing(d, Email); }
    }
  }

  /** The step-1 error map, one entry per listed field that is missing. */
  function Step1Map(d: FormData): Errors {
    map f | f in Step1Fields && Step1Missing(d, f) :: Step1Message(d, f)
  }

  lemma Step1MapKeys(d: FormData)
    ensures forall f :: f in Step1Map(d) <==> Step1Missing(d, f)
  {
    forall f ensures Step1Missing(d, f) ==> f in Step1Fields {
    }
  }

  lemma Step1MapEmpty(d: FormData)
    ensures Step1Map(d) == map[] <==> Step1Complete(d)
  {
    Step1MapKeys(d);
    Step1CompleteIff(d);
    assert Step1Map(d) == map[] <==> Step1Map(d).Keys == {};
  }

  /** The step-1 error map: one entry per missing or invalid personal field. */
  function Step1Errors(d: FormData): (m: Errors)
    ensures forall f :: f in m <==> Step1Missing(d, f)
    ensures m == map[] <==> Step1Complete(d)
    ensures forall f :: f in m ==> m[f] == Step1Message(d, f)
    ensures Phone in m ==> m[Phone] == if d.phone == "" then "Phone number is required" else PhoneMessage
  {
    Step1MapKeys(d);
    Step1MapEmpty(d);
    Step1Map(d)
  }


  /** `nextStep`: advance when step 1 is complete, otherwise show exactly its errors. */
  function NextStep(st: FormState): (r: FormState)
    ensures r.data == st.data
    ensures Step1Complete(st.data) ==> r.step == st.step + 1 && r.errors == st.errors
    ensures !Step1Complete(st.data) ==> r.step == st.step && r.errors == Step1Errors(st.data)
  {
    var errs := Step1Errors(st.data);
    if errs != map[] then st.(errors := errs) else st.(step := st.step + 1)
  }

  /** `prevStep`. */
  function PrevStep(st: FormState): (r: FormState)
    ensures r.step + 1 == st.step && r.data == st.data && r.errors == st.errors
  {
    st.(step := st.step - 1)
  }

  // ---------------------------------------------------------------------
  // submit

  predicate UsesWallet(d: FormData) {
    d.disbursementMethod == "gcash" || d.disbursementMethod == "maya"
  }

  /** Loan details are complete: amount, purpose, method, wallet when needed, both files, signature. */
  predicate Step2Complete(d: FormData) {
    d.loanAmount != "" && d.loanPurpose != "" && d.disbursementMethod != ""
    && (UsesWallet(d) ==> ValidatePhone(d.walletNumber))
    && d.corFile.Some? && d.schoolIdFile.Some? && d.signature != ""
  }

  /** Which submit-time field is missing; the wallet number only counts for GCash and Maya. */
  predicate Step2Missing(d: FormData, f: Field) {
    match f
    case LoanAmount => d.loanAmount == ""
    case LoanPurpose => d.loanPurpose == ""
    case DisbursementMethod => d.disbursementMethod == ""
    case WalletNumber => UsesWallet(d) && !ValidatePhone(d.walletNumber)
    case CorFile => d.corFile.None?
    case SchoolIdFile => d.schoolIdFile.None?
    case Signature => d.signature == ""
    case _ => false
  }

  const Step2Fields: set<Field> :=
    {LoanAmount, LoanPurpose, DisbursementMethod, WalletNumber, CorFile, SchoolIdFile, Signature}

  function Step2Message(d: FormData, f: Field): string {
    match f
    case LoanAmount => "Loan amount is required"
    case LoanPurpose => "Purpose is required"
    case DisbursementMethod => "Please select a receiving method"
    case WalletNumber => if d.walletNumber == "" then "Wallet number is required" else PhoneMessage
    case CorFile => "Certificate of Registration is required"
    case SchoolIdFile => "School ID is required"
    case Signature => "Please sign the application"
    case _ => ""
  }

  lemma Step2CompleteIff(d: FormData)
    ensures Step2Complete(d) <==> forall f :: !Step2Missing(d, f)
  {
    if !Step2Complete(d) {
      if d.loanAmount == "" { assert Step2Missing(d, LoanAmount); }
      else if d.loanPurpose == "" { assert Step2Missing(d, LoanPurpose); }
      else if d.disbursementMethod == "" { assert Step2Missing(d, DisbursementMethod); }
      else if UsesWallet(d) && !ValidatePhone(d.walletNumber) { assert Step2Missing(d, WalletNumber); }
      else if d.corFile.None? { assert Step2Missing(d, CorFile); }
      else if d.schoolIdFile.None? { assert Step2Missing(d, SchoolIdFile); }
      else { assert Step2Missing(d, Signature); }
    }
  }

  /** The submit-time error map, one entry per listed field that is missing. */
  function Step2Map(d: FormData): Errors {
    map f | f in Step2Fields && Step2Missing(d, f) :: Step2Message(d, f)
  }

  lemma Step2MapKeys(d: FormData)
    ensures forall f :: f in Step2Map(d) <==> Step2Missing(d, f)
  {
    forall f ensures Step2Missing(d, f) ==> f in Step2Fields {
    }
  }

  lemma Step2MapEmpty(d: FormData)
    ensures Step2Map(d) == map[] <==> Step2Complete(d)
  {
    Step2MapKeys(d);
    Step2CompleteIff(d);
    assert Step2Map(d) == map[] <==> Step2Map(d).Keys == {};
  }

  /** The submit-time error map: one entry per missing loan detail, file or signature. */
  function Step2Errors(d: FormData): (m: Errors)
    ensures forall f :: f in m <==> Step2Missing(d, f)
    ensures m == map[] <==> Step2Complete(d)
    ensures forall f :: f in m ==> m[f] == Step2Message(d, f)
    ensures WalletNumber in m ==>
      m[WalletNumber] == if d.walletNumber == "" then "Wallet number is required" else PhoneMessage
  {
    Step2MapKeys(d);
    Step2MapEmpty(d);
    Step2Map(d)
  }


  function FileName(f: Option<FileInfo>): string {
    match f
    case Some(x) => x.name
    case None => "Not attached"
  }

  /** The stored record built from the form; `now` and `isoDate` are the clock's readings. */
  function NewApplication(d: FormData, now: nat, isoDate: string): (a: Application)
    ensures a.status == Pending && a.id == Decimal(now) && a.date == isoDate
    ensures a.name == d.name && a.phone == d.phone && a.loanAmount == d.loanAmount
    ensures a.schoolId == d.schoolId && a.course == d.course && a.address == d.address
    ensures a.email == d.email && a.loanPurpose == d.loanPurpose
    ensures a.disbursementMethod == d.disbursementMethod && a.walletNumber == d.walletNumber
    ensures a.signature == d.signature
    ensures a.corFileName == if d.corFile.Some? then d.corFile.value.name else "Not attached"
    ensures a.schoolIdFileName == if d.schoolIdFile.Some? then d.schoolIdFile.value.name else "Not attached"
  {
    Application(Decimal(now), isoDate, Pending, d.name, d.schoolId, d.course, d.address,
                d.phone, d.email, d.loanPurpose, d.loanAmount, d.disbursementMethod,
                d.walletNumber, FileName(d.corFile), FileName(d.schoolIdFile), d.signature)
  }

  /**
   * Saving the new record in front of the stored list: a missing list is
   * empty, and an unreadable one is left as it is.
   */
  function Prepend(stored: StoredApps, a: Application): (r: StoredApps)
    ensures stored.Absent? ==> r == Apps([a])
    ensures stored.Apps? ==> r.Apps? && |r.apps| == |stored.apps| + 1 && r.apps[0] == a && r.apps[1..] == stored.apps
    ensures stored.Malformed? ==> r == stored
  {
    match stored
    case Absent => Apps([a])
    case Malformed => Malformed
    case Apps(apps) => Apps([a] + apps)
  }

  datatype Submission = Submission(state: FormState, stored: StoredApps)

  /** `handleSubmit`; the e-mail hand-off that follows is not modelled. */
  function HandleSubmit(st: FormState, stored: StoredApps, now: nat, isoDate: string): (r: Submission)
    ensures !Step2Complete(st.data) ==>
      r == Submission(st.(errors := Step2Errors(st.data)), stored)
    ensures Step2Complete(st.data) ==>
      r.state == st.(submitted := true) && r.stored == Prepend(stored, NewApplication(st.data, now, isoDate))
  {
    var errs := Step2Errors(st.data);
    if errs != map[] then
      Submission(st.(errors := errs), stored)
    else
      Submission(st.(submitted := true), Prepend(stored, NewApplication(st.data, now, isoDate)))
  }

  /** `handleNewApplication`: back to step 1 with no errors and every field empty. */
  function HandleNewApplication(st: FormState): (r: FormState)
    ensures !r.submitted && r.step == 1 && r.errors == map[]
    ensures forall f: TextField :: TextOf(r.data, f) == ""
    ensures r.data.corFile == None && r.data.schoolIdFile == None && r.data.signature == ""
  {
    Fresh
  }

  /** Pressing "Next" on a fresh form reports all six personal fields, the phone as missing. */
  lemma FreshFormNextStep(st: FormState)
    ensures var r := NextStep(HandleNewApplication(st));
      r.step == 1 && r.errors.Keys == Step1Fields && r.errors[Phone] == "Phone number is required"
  {
    var m := Step1Errors(EmptyForm);
    assert !ValidatePhone("");
    assert forall f :: f in m <==> f in Step1Fields by {
      forall f ensures f in m <==> f in Step1Fields {
        assert Step1Missing(EmptyForm, f) <==> f in Step1Fields;
      }
    }
  }
}

=== FILE: numeric.dfy ===
/**
 * Numbers as the application reads and writes them: `Date.now().toString()`
 * (decimal digits of a non-negative integer), `parseFloat` and `Number` over
 * plain decimal literals `digits [. digits]`.
 */
module Numeric {
  import opened Wrappers
  import opened Text

  function DigitChar(d: nat): (c: char)
    requires d < 10
    ensures IsDigit(c)
  {
    ('0' as int + d) as char
  }

  function DigitValue(c: char): (d: nat)
    requires IsDigit(c)
    ensures d < 10
  {
    c as int - '0' as int
  }

  /** `n.toString()`: the decimal digits of `n`, most significant first, without leading zeros. */
  function Decimal(n: nat): (r: string)
    ensures |r| > 0 && AllDigits(r)
    ensures r[0] == '0' ==> n == 0
    decreases n
  {
    if n < 10 then [DigitChar(n)] else Decimal(n / 10) + [DigitChar(n % 10)]
  }

  /** The value of a string of decimal digits (the empty string reads as 0). */
  function DigitsValue(s: string): nat
    requires AllDigits(s)
    decreases |s|
  {
    if |s| == 0 then 0 else 10 * DigitsValue(s[..|s| - 1]) + DigitValue(s[|s| - 1])
  }

  lemma {:induction false} DecimalRoundTrip(n: nat)
    ensures DigitsValue(Decimal(n)) == n
    decreases n
  {
    if n >= 10 {
      var r := Decimal(n);
      assert r[..|r| - 1] == Decimal(n / 10);
      DecimalRoundTrip(n / 10);
    }
  }

  /** Different numbers print differently, so a timestamp token is as unique as the timestamp. */
  lemma DecimalInjective(m: nat, n: nat)
    requires Decimal(m) == Decimal(n)
    ensures m == n
  {
    DecimalRoundTrip(m);
    DecimalRoundTrip(n);
  }

  /** `x` shifted `k` decimal places to the right. */
  function Shift(x: real, k: nat): (r: real)
    ensures x >= 0.0 ==> r >= 0.0
    ensures x >= 0.0 ==> r <= x
  {
    if k == 0 then x else Shift(x, k - 1) / 10.0
  }

  /** The number of leading decimal digits of `s`. */
  function DigitRun(s: string): (k: nat)
    ensures k <= |s| && AllDigits(s[..k])
    ensures k < |s| ==> !IsDigit(s[k])
  {
    if |s| > 0 && IsDigit(s[0]) then
      assert s[..1 + DigitRun(s[1..])] == [s[0]] + s[1..][..DigitRun(s[1..])];
      1 + DigitRun(s[1..])
    else
      0
  }

  /** The number written `whole.fraction`, where the fraction has `digits` digits. */
  function DecimalValue(whole: nat, fraction: nat, digits: nat): real {
    whole as real + Shift(fraction as real, digits)
  }

  /** A numeric prefix that was read: its value and how many characters it took. */
  datatype Scan = Scan(value: real, length: nat)

  /**
   * The longest prefix of `s` of the form `digits [. digits]`, read as a
   * decimal number; `None` when `s` does not start with a digit.
   */
  function ScanDecimal(s: string): (r: Option<Scan>)
    ensures r.Some? <==> |s| > 0 && IsDigit(s[0])
    ensures r.Some? ==> 0 < r.value.length <= |s| && r.value.value >= 0.0
    ensures r.Some? && AllDigits(s) ==> r.value.length == |s| && r.value.value == DigitsValue(s) as real
  {
    var k := DigitRun(s);
    if k == 0 then
      None
    else
      if k < |s| && s[k] == '.' then
        var rest := s[k + 1..];
        var f := DigitRun(rest);
        Some(Scan(DecimalValue(DigitsValue(s[..k]), DigitsValue(rest[..f]), f), k + 1 + f))
      else
        assert AllDigits(s) ==> k == |s| && s[..k] == s;
        Some(Scan(DigitsValue(s[..k]) as real, k))
  }

  /**
   * `parseFloat(s)`: leading white space is skipped and the longest numeric
   * prefix is read; `None` stands for `NaN`.
   */
  function ParseFloat(s: string): (r: Option<real>)
    ensures r.Some? <==> |TrimStart(s)| > 0 && IsDigit(TrimStart(s)[0])
    ensures r.Some? ==> r.value >= 0.0
  {
    match ScanDecimal(TrimStart(s))
    case None => None
    case Some(sc) => Some(sc.value)
  }

  /**
   * `Number(s)`: white space around the literal is ignored, a blank string is
   * 0, and anything that is not numeric all the way through is `NaN` (`None`).
   */
  function ToNumber(s: string): (r: Option<real>)
    ensures Trim(s) == "" ==> r == Some(0.0)
    ensures r.Some? ==> r.value >= 0.0
    ensures AllDigits(Trim(s)) ==> r == Some(DigitsValue(Trim(s)) as real)
  {
    var t := Trim(s);
    if t == "" then
      Some(0.0)
    else
      match ScanDecimal(t)
      case None => None
      case Some(sc) => if sc.length == |t| then Some(sc.value) else None
  }

  /** A printed integer reads back as itself under both `parseFloat` and `Number`. */
  lemma ParseDecimalRoundTrip(n: nat)
    ensures ParseFloat(Decimal(n)) == Some(n as real)
    ensures ToNumber(Decimal(n)) == Some(n as real)
  {
    var d := Decimal(n);
    DecimalRoundTrip(n);
    assert TrimStart(d) == d;
    assert Trim(d) == d by {
      assert TrimEnd(d) == d;
    }
  }
}

=== FILE: payment.dfy ===
/**
 * The borrower's payment form: it records a payment, marks every matching
 * Approved or Pending application as Paid, posts a sync message on a
 * broadcast channel (which nothing in the site listens to), and opens the
 * chosen e-wallet.
 */
module Payment {
  import opened Text
  import opened Records

  /** The number payments are sent to, shown on the form. */
  const ReceiverNumber := "09158203127"

  datatype Method = GCash | Maya | InPerson

  /** The form's fields; `payVia` is the payment method and starts as GCash. */
  datatype PaymentData = PaymentData(
    name: string, phone: string, amount: string, payVia: Method,
    walletNumber: string, meetupLocation: string, meetupTime: string)

  const EmptyPayment := PaymentData("", "", "", GCash, "", "", "")

  /** The text inputs `handleChange` serves. */
  datatype PaymentField = Name | Phone | Amount | WalletNumber | MeetupLocation | MeetupTime

  function FieldOf(d: PaymentData, f: PaymentField): string {
    match f
    case Name => d.name
    case Phone => d.phone
    case Amount => d.amount
    case WalletNumber => d.walletNumber
    case MeetupLocation => d.meetupLocation
    case MeetupTime => d.meetupTime
  }

  /** `handleChange`: the edited input takes the new text, nothing else changes. */
  function HandleChange(d: PaymentData, f: PaymentField, value: string): (r: PaymentData)
    ensures FieldOf(r, f) == value
    ensures forall g :: g != f ==> FieldOf(r, g) == FieldOf(d, g)
    ensures r.payVia == d.payVia
  {
    match f
    case Name => d.(name := value)
    case Phone => d.(phone := value)
    case Amount => d.(amount := value)
    case WalletNumber => d.(walletNumber := value)
    case MeetupLocation => d.(meetupLocation := value)
    case MeetupTime => d.(meetupTime := value)
  }

  /** `handleMethodChange`: only the method changes. */
  function HandleMethodChange(d: PaymentData, m: Method): (r: PaymentData)
    ensures r.payVia == m
    ensures forall g :: FieldOf(r, g) == FieldOf(d, g)
  {
    d.(payVia := m)
  }

  /**
   * An application the payment settles: same name ignoring case and
   * surrounding white space, same phone ignoring surrounding white space, and
   * still Approved or Pending.
   */
  predicate Settles(d: PaymentData, a: Application) {
    && Trim(Lower(a.name)) == Trim(Lower(d.name))
    && Trim(a.phone) == Trim(d.phone)
    && (a.status == Approved || a.status == Pending)
  }

  /** `matchFound`. */
  predicate MatchFound(d: PaymentData, apps: seq<Application>) {
    exists i :: 0 <= i < |apps| && Settles(d, apps[i])
  }

  /** One record under the `apps.map` of `handleSubmit`. */
  function Settle(d: PaymentData, a: Application): Application {
    if Settles(d, a) then a.(status := Paid) else a
  }

  /** The `apps.map` of `handleSubmit`: every settled application becomes Paid. */
  function MarkPaid(d: PaymentData, apps: seq<Application>): (r: seq<Application>)
    ensures |r| == |apps|
    ensures forall i :: 0 <= i < |r| && Settles(d, apps[i]) ==> r[i] == apps[i].(status := Paid)
    ensures forall i :: 0 <= i < |r| && !Settles(d, apps[i]) ==> r[i] == apps[i]
    decreases |apps|
  {
    if |apps| == 0 then [] else [Settle(d, apps[0])] + MarkPaid(d, apps[1..])
  }

  lemma {:induction false} MarkPaidAt(d: PaymentData, apps: seq<Application>)
    ensures forall i :: 0 <= i < |apps| ==> MarkPaid(d, apps)[i] == Settle(d, apps[i])
    decreases |apps|
  {
    if |apps| > 0 {
      MarkPaidAt(d, apps[1..]);
      forall i | 1 <= i < |apps|
        ensures MarkPaid(d, apps)[i] == Settle(d, apps[i])
      {
        assert MarkPaid(d, apps)[i] == MarkPaid(d, apps[1..])[i - 1];
      }
    }
  }

  /**
   * Marking a payment changes statuses only: order and every other field stay,
   * a record ends Paid exactly when it was Paid or the payment settles it,
   * and Paid or Rejected records are never touched.
   */
  lemma MarkPaidFrame(d: PaymentData, apps: seq<Application>)
    ensures var r := MarkPaid(d, apps);
      && |r| == |apps|
      && (forall i :: 0 <= i < |r| ==> r[i].(status := apps[i].status) == apps[i])
      && (forall i :: 0 <= i < |r| ==> (r[i].status == Paid <==> apps[i].status == Paid || Settles(d, apps[i])))
      && (forall i :: 0 <= i < |r| && (apps[i].status == Paid || apps[i].status == Rejected) ==> r[i] == apps[i])
  {
    MarkPaidAt(d, apps);
  }

  lemma {:induction false} MarkPaidUnchanged(d: PaymentData, apps: seq<Application>)
    requires !MatchFound(d, apps)
    ensures MarkPaid(d, apps) == apps
    decreases |apps|
  {
    if |apps| > 0 {
      assert !Settles(d, apps[0]);
      forall i | 0 <= i < |apps[1..]|
        ensures !Settles(d, apps[1..][i])
      {
        assert apps[1..][i] == apps[i + 1];
      }
      MarkPaidUnchanged(d, apps[1..]);
      assert apps == [apps[0]] + apps[1..];
    }
  }

  /** The list changes exactly when a match was found, which is when storage is written. */
  lemma MarkPaidChangesIff(d: PaymentData, apps: seq<Application>)
    ensures MarkPaid(d, apps) != apps <==> MatchFound(d, apps)
  {
    if MatchFound(d, apps) {
      var i :| 0 <= i < |apps| && Settles(d, apps[i]);
      MarkPaidAt(d, apps);
      assert MarkPaid(d, apps)[i].status == Paid != apps[i].status;
    } else {
      MarkPaidUnchanged(d, apps);
    }
  }

  /** Submitting the same payment twice marks nothing the second time. */
  lemma MarkPaidIdempotent(d: PaymentData, apps: seq<Application>)
    ensures !MatchFound(d, MarkPaid(d, apps))
    ensures MarkPaid(d, MarkPaid(d, apps)) == MarkPaid(d, apps)
  {
    var r := MarkPaid(d, apps);
    MarkPaidAt(d, apps);
    forall i | 0 <= i < |r|
      ensures !Settles(d, r[i])
    {
      assert r[i] == Settle(d, apps[i]);
    }
    MarkPaidUnchanged(d, r);
  }

  /**
   * Case in the name and white space around name and phone do not affect
   * which applications a payment settles.
   */
  lemma {:induction false} SettlesIgnoresPadding(d: PaymentData, a: Application, p: string, q: string, p2: string, q2: string)
    requires AllSpace(p) && AllSpace(q) && AllSpace(p2) && AllSpace(q2)
    ensures Settles(d.(name := p + d.name + q, phone := p2 + d.phone + q2), a) <==> Settles(d, a)
    ensures Settles(d.(name := Lower(d.name)), a) <==> Settles(d, a)
  {
    LowerConcat(p + d.name, q);
    LowerConcat(p, d.name);
    LowerKeepsSpace(p);
    LowerKeepsSpace(q);
    TrimIgnoresPadding(p, Lower(d.name), q);
    TrimIgnoresPadding(p2, d.phone, q2);
    LowerIdempotent(d.name);
  }

  const GCashUrl := "https://m.gcash.com"
  const MayaUrl := "https://www.maya.ph"
  const SyncChannel := "app_sync_channel"
  const PaymentReceived := "PAYMENT_RECEIVED"

  /** What a submit does outside the form. */
  datatype Effect = OpenWindow(url: string) | Broadcast(channel: string, messageType: string)

  /** The form after a submit: its step, the stored list, and the effects in order. */
  datatype Submitted = Submitted(step: nat, stored: StoredApps, effects: seq<Effect>)

  /** The e-wallet page a method opens, if any. */
  function WalletEffects(m: Method): (es: seq<Effect>)
    ensures |es| <= 1
    ensures OpenWindow(GCashUrl) in es <==> m == GCash
    ensures OpenWindow(MayaUrl) in es <==> m == Maya
  {
    match m
    case GCash => [OpenWindow(GCashUrl)]
    case Maya => [OpenWindow(MayaUrl)]
    case InPerson => []
  }

  /**
   * `handleSubmit`: the form always moves to the success step; storage is
   * written and the sync message posted only when some stored application
   * matched; a list that cannot be read is left as it is.
   */
  function HandleSubmit(d: PaymentData, stored: StoredApps): (r: Submitted)
    ensures r.step == 2
    ensures stored.Apps? && MatchFound(d, stored.apps) ==>
      r.stored == Apps(MarkPaid(d, stored.apps)) && Broadcast(SyncChannel, PaymentReceived) in r.effects
    ensures !(stored.Apps? && MatchFound(d, stored.apps)) ==>
      r.stored == stored && Broadcast(SyncChannel, PaymentReceived) !in r.effects
    ensures OpenWindow(GCashUrl) in r.effects <==> d.payVia == GCash
    ensures OpenWindow(MayaUrl) in r.effects <==> d.payVia == Maya
  {
    var wallet := WalletEffects(d.payVia);
    if stored.Apps? && MatchFound(d, stored.apps) then
      Submitted(2, Apps(MarkPaid(d, stored.apps)), [Broadcast(SyncChannel, PaymentReceived)] + wallet)
    else
      Submitted(2, stored, wallet)
  }
}

=== FILE: records.dfy ===
/** The loan-application record shared by the form, the admin panel and the payment form. */
module Records {

  /** The four statuses of an application. */
  datatype Status = Pending | Approved | Rejected | Paid

  /** The status as stored and as written on the filter buttons. */
  function StatusName(s: Status): string {
    match s
    case Pending => "Pending"
    case Approved => "Approved"
    case Rejected => "Rejected"
    case Paid => "Paid"
  }

  /** Status names are distinct, and none of them is the "All" filter. */
  lemma StatusNameInjective(s: Status, t: Status)
    ensures StatusName(s) == StatusName(t) <==> s == t
    ensures StatusName(s) != "All"
  {
  }

  /**
   * One stored application. Field names follow the stored JSON object; the
   * attached files are kept only by name.
   */
  datatype Application = Application(
    id: string,
    date: string,
    status: Status,
    name: string,
    schoolId: string,
    course: string,
    address: string,
    phone: string,
    email: string,
    loanPurpose: string,
    loanAmount: string,
    disbursementMethod: string,
    walletNumber: string,
    corFileName: string,
    schoolIdFileName: string,
    signature: string)

  /** The storage key under which the list of applications is kept. */
  const ApplicationsKey := "loanApplications"

  /**
   * The value read back from storage under `ApplicationsKey`: nothing (or the
   * empty string), text that does not parse as a list, or a parsed list.
   */
  datatype StoredApps = Absent | Malformed | Apps(apps: seq<Application>)
}

=== FILE: recovery.dfy ===
/**
 * The maintenance lock-out screen: a one-second recovery poll that leaves for
 * a cache-busting URL whenever the shared flag reads off, a half-second
 * "..." animation, and a manual refresh button.
 */
module Recovery {
  import opened Wrappers
  import opened Text
  import opened Numeric

  /** Storage key of the shared maintenance flag. */
  const MaintenanceKey := "allowance_aid_maintenance_mode"

  /** The flag counts as on only when the stored text is exactly "true". */
  predicate FlagOn(flag: Option<string>) {
    flag == Some("true")
  }

  /** What the page asks the browser to do. */
  datatype Effect = NoEffect | Navigate(url: string) | Reload

  const RecoveryPrefix := "/?status=active&t="

  /** The time token carried by a recovery URL, read back; `None` for any other URL. */
  function CacheToken(url: string): Option<nat> {
    if |url| > |RecoveryPrefix| && url[..|RecoveryPrefix|] == RecoveryPrefix
       && AllDigits(url[|RecoveryPrefix|..])
    then Some(DigitsValue(url[|RecoveryPrefix|..]))
    else None
  }

  /**
   * The URL a recovery poll leaves for at time `now`: it carries `now` as its
   * cache-busting token and has no fragment.
   */
  function RecoveryUrl(now: nat): (url: string)
    ensures CacheToken(url) == Some(now)
    ensures '#' !in url
  {
    var d := Decimal(now);
    var url := RecoveryPrefix + d;
    assert url[..|RecoveryPrefix|] == RecoveryPrefix;
    assert url[|RecoveryPrefix|..] == d;
    DecimalRoundTrip(now);
    assert forall i :: 0 <= i < |d| ==> d[i] != '#';
    url
  }

  /** Polls at different times leave for different URLs, so no cached copy is reused. */
  lemma RecoveryUrlsDistinct(t1: nat, t2: nat)
    requires t1 != t2
    ensures RecoveryUrl(t1) != RecoveryUrl(t2)
  {
    assert CacheToken(RecoveryUrl(t1)) != CacheToken(RecoveryUrl(t2));
  }

  /** One recovery poll: stay while the flag is on, otherwise leave for a fresh URL. */
  function RecoveryPoll(flag: Option<string>, now: nat): (e: Effect)
    ensures e == NoEffect <==> FlagOn(flag)
    ensures e != NoEffect ==> e.Navigate? && CacheToken(e.url) == Some(now)
  {
    if FlagOn(flag) then NoEffect else Navigate(RecoveryUrl(now))
  }

  // ---------------------------------------------------------------------
  // the "..." indicator

  predicate ValidDots(d: string) {
    |d| <= 3 && forall i :: 0 <= i < |d| ==> d[i] == '.'
  }

  /** One animation tick: one more dot, back to none after three. */
  function NextDots(prev: string): (next: string)
    ensures ValidDots(prev) ==> ValidDots(next)
    ensures |prev| < 3 ==> |next| == |prev| + 1
    ensures |prev| >= 3 ==> next == ""
  {
    if |prev| >= 3 then "" else prev + "."
  }

  /** The indicator runs '' -> '.' -> '..' -> '...' -> '' and so has period four. */
  lemma DotsCycle(d: string)
    requires ValidDots(d)
    ensures NextDots(NextDots(NextDots(NextDots(d)))) == d
  {
    if |d| == 0 {
    } else if |d| == 1 {
      assert d == ".";
    } else if |d| == 2 {
      assert d == "..";
    } else {
      assert d == "...";
    }
  }

  // ---------------------------------------------------------------------
  // the mounted page and its timers

  /** Whether the page (and so both of its intervals) is live, and the indicator text. */
  datatype PageState = PageState(mounted: bool, dots: string)

  const Mounted := PageState(true, "")

  datatype PageEvent =
    | Poll(flag: Option<string>, now: nat)   // the 1 s recovery interval fires
    | DotsTick                               // the 500 ms animation interval fires
    | RefreshClick                           // the "Manual Refresh" button
    | Unmount                                // the view goes away; both intervals are cleared

  datatype Outcome = Outcome(state: PageState, effect: Effect)

  function Handle(st: PageState, ev: PageEvent): (o: Outcome)
    ensures !st.mounted ==> o == Outcome(st, NoEffect)
    ensures st.mounted && ev.Poll? ==> o == Outcome(st, RecoveryPoll(ev.flag, ev.now))
    ensures st.mounted && ev.DotsTick? ==> o.effect == NoEffect && o.state == st.(dots := NextDots(st.dots))
    ensures st.mounted && ev.RefreshClick? ==> o.effect == Reload && o.state == st
    ensures st.mounted && ev.Unmount? ==> o.effect == NoEffect && o.state == st.(mounted := false)
    ensures ev.Unmount? ==> !o.state.mounted
    ensures ValidDots(st.dots) ==> ValidDots(o.state.dots)
  {
    if !st.mounted then
      Outcome(st, NoEffect)
    else
      match ev
      case Poll(flag, now) => Outcome(st, RecoveryPoll(flag, now))
      case DotsTick => Outcome(st.(dots := NextDots(st.dots)), NoEffect)
      case RefreshClick => Outcome(st, Reload)
      case Unmount => Outcome(st.(mounted := false), NoEffect)
  }

  /** The effects a sequence of events produces, in order, and the state it ends in. */
  function Run(st: PageState, evs: seq<PageEvent>): (o: (PageState, seq<Effect>))
    ensures |o.1| == |evs|
    decreases |evs|
  {
    if |evs| == 0 then
      (st, [])
    else
      var first := Handle(st, evs[0]);
      var rest := Run(first.state, evs[1..]);
      (rest.0, [first.effect] + rest.1)
  }

  predicate AllPolls(evs: seq<PageEvent>) {
    forall i :: 0 <= i < |evs| ==> evs[i].Poll?
  }

  /**
   * There is no one-shot latch: while the page stays mounted, every poll that
   * reads the flag off issues a navigation, and every poll that reads it on
   * issues none.
   */
  lemma {:induction false} EveryOffPollNavigates(st: PageState, evs: seq<PageEvent>)
    requires st.mounted && AllPolls(evs)
    ensures forall i :: 0 <= i < |evs| ==>
      Run(st, evs).1[i] == RecoveryPoll(evs[i].flag, evs[i].now)
    ensures Run(st, evs).0 == st
    decreases |evs|
  {
    if |evs| > 0 {
      EveryOffPollNavigates(st, evs[1..]);
    }
  }

  /** Once unmounted, the page never acts again: its intervals were cleared. */
  lemma {:induction false} UnmountedIsSilent(st: PageState, evs: seq<PageEvent>)
    requires !st.mounted
    ensures Run(st, evs).0 == st
    ensures forall i :: 0 <= i < |evs| ==> Run(st, evs).1[i] == NoEffect
    decreases |evs|
  {
    if |evs| > 0 {
      UnmountedIsSilent(st, evs[1..]);
    }
  }
}

=== FILE: seqs.dfy ===
/** Order-preserving filtering of sequences (`Array.prototype.filter`). */
module Seqs {

  /** `sub` can be obtained from `s` by deleting elements, keeping the rest in order. */
  predicate IsSubsequence<T(==)>(sub: seq<T>, s: seq<T>)
    decreases |s|
  {
    if |sub| == 0 then true
    else if |s| == 0 then false
    else if sub[0] == s[0] then IsSubsequence(sub[1..], s[1..])
    else IsSubsequence(sub, s[1..])
  }

  lemma {:induction false} SubsequenceReflexive<T>(s: seq<T>)
    ensures IsSubsequence(s, s)
    decreases |s|
  {
    if |s| > 0 {
      SubsequenceReflexive(s[1..]);
    }
  }

  /**
   * `s.filter(p)`: every element satisfying `p`, as often as it occurs in
   * `s`, in the order of `s`, and nothing else.
   */
  function Filter<T(==,!new)>(s: seq<T>, p: T -> bool): (r: seq<T>)
    ensures |r| <= |s|
    ensures forall x :: x in r <==> x in s && p(x)
    ensures forall x :: multiset(r)[x] == if p(x) then multiset(s)[x] else 0
    ensures IsSubsequence(r, s)
    decreases |s|
  {
    if |s| == 0 then
      []
    else
      var rest := Filter(s[1..], p);
      assert s == [s[0]] + s[1..];
      if p(s[0]) then
        assert ([s[0]] + rest)[1..] == rest;
        [s[0]] + rest
      else
        rest
  }

  /** Number of elements of `s` satisfying `p`. */
  function CountWhere<T>(s: seq<T>, p: T -> bool): nat
    decreases |s|
  {
    if |s| == 0 then 0 else (if p(s[0]) then 1 else 0) + CountWhere(s[1..], p)
  }

  lemma {:induction false} CountIsFilterSize<T(!new)>(s: seq<T>, p: T -> bool)
    ensures CountWhere(s, p) == |Filter(s, p)|
    decreases |s|
  {
    if |s| > 0 {
      CountIsFilterSize(s[1..], p);
    }
  }

  lemma {:induction false} CountConcat<T>(a: seq<T>, b: seq<T>, p: T -> bool)
    ensures CountWhere(a + b, p) == CountWhere(a, p) + CountWhere(b, p)
    decreases |a|
  {
    if |a| > 0 {
      assert (a + b)[0] == a[0];
      assert (a + b)[1..] == a[1..] + b;
      CountConcat(a[1..], b, p);
    } else {
      assert a + b == b;
    }
  }
}

=== FILE: text.dfy ===
/**
 * String helpers with the JavaScript meaning the application relies on:
 * `String.prototype.includes`, `toLowerCase`, `trim` and the `<` comparison
 * of two strings. Lower-casing and trimming are modelled over ASCII.
 */
module Text {

  predicate IsDigit(c: char) {
    '0' <= c <= '9'
  }

  predicate AllDigits(s: string) {
    forall i :: 0 <= i < |s| ==> IsDigit(s[i])
  }

  /** ASCII white space: space, tab, line feed, vertical tab, form feed, carriage return. */
  predicate IsSpace(c: char) {
    c == ' ' || '\t' <= c <= '\r'
  }

  predicate AllSpace(s: string) {
    forall i :: 0 <= i < |s| ==> IsSpace(s[i])
  }

  // ---------------------------------------------------------------------
  // includes

  /** `sub` occurs in `s` starting at index `i`. */
  ghost predicate OccursAt(s: string, sub: string, i: int) {
    0 <= i && i + |sub| <= |s| && s[i..i + |sub|] == sub
  }

  lemma OccursShift(s: string, sub: string)
    requires |s| > 0
    ensures forall j :: 0 <= j ==> (OccursAt(s[1..], sub, j) <==> OccursAt(s, sub, j + 1))
  {
    forall j | 0 <= j
      ensures OccursAt(s[1..], sub, j) <==> OccursAt(s, sub, j + 1)
    {
      if 0 <= j && j + |sub| <= |s| - 1 {
        assert s[1..][j..j + |sub|] == s[j + 1..j + 1 + |sub|];
      }
    }
  }

  /** `s.includes(sub)`: some window of `s` equals `sub`. */
  function Includes(s: string, sub: string): (b: bool)
    ensures b <==> exists i :: OccursAt(s, sub, i)
    decreases |s|
  {
    if |s| < |sub| then
      false
    else if s[..|sub|] == sub then
      assert OccursAt(s, sub, 0);
      true
    else
      OccursShift(s, sub);
      assert !OccursAt(s, sub, 0);
      assert forall i :: OccursAt(s, sub, i) ==> OccursAt(s[1..], sub, i - 1);
      Includes(s[1..], sub)
  }

  /** A string that contains `sub` keeps containing it whatever is put around it. */
  lemma IncludesExtended(pre: string, s: string, post: string, sub: string)
    requires Includes(s, sub)
    ensures Includes(pre + s + post, sub)
  {
    var i :| OccursAt(s, sub, i);
    var t := pre + s + post;
    assert t[|pre| + i..|pre| + i + |sub|] == s[i..i + |sub|];
    assert OccursAt(t, sub, |pre| + i);
  }

  // ---------------------------------------------------------------------
  // toLowerCase (ASCII)

  function LowerChar(c: char): char {
    if 'A' <= c <= 'Z' then (c as int + 32) as char else c
  }

  function Lower(s: string): (r: string)
    ensures |r| == |s|
    ensures forall i :: 0 <= i < |s| ==> r[i] == LowerChar(s[i])
  {
    seq(|s|, i requires 0 <= i < |s| => LowerChar(s[i]))
  }

  lemma LowerIdempotent(s: string)
    ensures Lower(Lower(s)) == Lower(s)
  {
  }

  /** Lower-casing distributes over concatenation and leaves white space alone. */
  lemma LowerConcat(a: string, b: string)
    ensures Lower(a + b) == Lower(a) + Lower(b)
  {
  }

  lemma LowerKeepsSpace(s: string)
    requires AllSpace(s)
    ensures Lower(s) == s
  {
  }

  // ---------------------------------------------------------------------
  // trim

  /** Drops leading white space: the result is a suffix of `s` whose dropped part is all space. */
  function TrimStart(s: string): (r: string)
    ensures |r| <= |s| && r == s[|s| - |r|..]
    ensures AllSpace(s[..|s| - |r|])
    ensures |r| > 0 ==> !IsSpace(r[0])
  {
    if |s| > 0 && IsSpace(s[0]) then TrimStart(s[1..]) else s
  }

  /** Drops trailing white space: the result is a prefix of `s` whose dropped part is all space. */
  function TrimEnd(s: string): (r: string)
    ensures |r| <= |s| && r == s[..|r|]
    ensures AllSpace(s[|r|..])
    ensures |r| > 0 ==> !IsSpace(r[|r| - 1])
  {
    if |s| > 0 && IsSpace(s[|s| - 1]) then TrimEnd(s[..|s| - 1]) else s
  }

  /** `s.trim()`. */
  function Trim(s: string): string {
    TrimEnd(TrimStart(s))
  }

  /** A string whose ends are not white space (or which is empty). */
  predicate Trimmed(m: string) {
    |m| == 0 || (!IsSpace(m[0]) && !IsSpace(m[|m| - 1]))
  }

  lemma {:induction false} TrimStartPadded(a: string, m: string)
    requires AllSpace(a)
    requires |m| == 0 || !IsSpace(m[0])
    ensures TrimStart(a + m) == m
    decreases |a|
  {
    if |a| == 0 {
      assert a + m == m;
    } else {
      assert (a + m)[1..] == a[1..] + m;
      TrimStartPadded(a[1..], m);
    }
  }

  lemma {:induction false} TrimEndPadded(m: string, b: string)
    requires AllSpace(b)
    requires |m| == 0 || !IsSpace(m[|m| - 1])
    ensures TrimEnd(m + b) == m
    decreases |b|
  {
    if |b| == 0 {
      assert m + b == m;
    } else {
      assert (m + b)[..|m + b| - 1] == m + b[..|b| - 1];
      TrimEndPadded(m, b[..|b| - 1]);
    }
  }

  /**
   * Trimming is characterised by its result: if `s` is `m` padded with white
   * space on both sides and `m` has no white space at its ends, `Trim(s) == m`.
   */
  lemma TrimUnique(a: string, m: string, b: string)
    requires AllSpace(a) && AllSpace(b) && Trimmed(m)
    ensures Trim(a + m + b) == m
  {
    if |m| == 0 {
      assert a + m + b == a + b;
      assert AllSpace(a + b);
      TrimStartPadded(a + b, "");
      assert a + b + "" == a + b;
      assert TrimStart(a + b) == "";
    } else {
      assert a + m + b == a + (m + b);
      TrimStartPadded(a, m + b);
      TrimEndPadded(m, b);
    }
  }

  /** Moving the padding of a three-part core into its neighbours leaves the string alone. */
  lemma Regroup(p: string, a: string, m: string, b: string, q: string)
    ensures p + (a + m + b) + q == (p + a) + m + (b + q)
  {
    var l := p + (a + m + b) + q;
    var r := (p + a) + m + (b + q);
    assert |l| == |r|;
    forall i | 0 <= i < |l|
      ensures l[i] == r[i]
    {
    }
  }

  lemma AllSpaceConcat(x: string, y: string)
    requires AllSpace(x) && AllSpace(y)
    ensures AllSpace(x + y)
  {
  }

  /** `Trim(s)` has no white space at either end. */
  lemma TrimmedTrim(s: string)
    ensures Trimmed(Trim(s))
  {
    var t := TrimStart(s);
    var r := TrimEnd(t);
    if |r| > 0 {
      assert r[0] == t[0];
    }
  }

  lemma ConcatAssoc(x: string, y: string, z: string)
    ensures x + (y + z) == x + y + z
  {
  }

  lemma TrimStartSplit(s: string) returns (a: string)
    ensures AllSpace(a) && s == a + TrimStart(s)
  {
    var t := TrimStart(s);
    a := s[..|s| - |t|];
    assert s == s[..|s| - |t|] + s[|s| - |t|..];
  }

  lemma TrimEndSplit(t: string) returns (b: string)
    ensures AllSpace(b) && t == TrimEnd(t) + b
  {
    var r := TrimEnd(t);
    b := t[|r|..];
    assert t == t[..|r|] + t[|r|..];
  }

  /** Every string is its trimmed core with white space on either side. */
  lemma TrimShape(s: string) returns (a: string, b: string)
    ensures AllSpace(a) && AllSpace(b) && s == a + Trim(s) + b
  {
    var t := TrimStart(s);
    a := TrimStartSplit(s);
    b := TrimEndSplit(t);
    var m := TrimEnd(t);
    assert s == a + (m + b);
    ConcatAssoc(a, m, b);
  }

  /** Padding a string with white space does not change what it trims to. */
  lemma TrimIgnoresPadding(p: string, s: string, q: string)
    requires AllSpace(p) && AllSpace(q)
    ensures Trim(p + s + q) == Trim(s)
  {
    var a, b := TrimShape(s);
    TrimmedTrim(s);
    var m := Trim(s);
    Regroup(p, a, m, b, q);
    AllSpaceConcat(p, a);
    AllSpaceConcat(b, q);
    TrimUnique(p + a, m, b + q);
  }

  // ---------------------------------------------------------------------
  // a < b on strings (lexicographic by character code)

  /** JavaScript's `a < b` for two strings. */
  predicate Less(a: string, b: string) {
    if |a| == 0 then |b| > 0
    else if |b| == 0 then false
    else if a[0] != b[0] then a[0] < b[0]
    else Less(a[1..], b[1..])
  }

  lemma {:induction false} LessIrreflexive(a: string)
    ensures !Less(a, a)
  {
    if |a| > 0 {
      LessIrreflexive(a[1..]);
    }
  }

  lemma {:induction false} LessTransitive(a: string, b: string, c: string)
    requires Less(a, b) && Less(b, c)
    ensures Less(a, c)
  {
    if |a| > 0 && |b| > 0 && |c| > 0 && a[0] == b[0] && b[0] == c[0] {
      LessTransitive(a[1..], b[1..], c[1..]);
    }
  }

  /** Two different strings are ordered one way or the other. */
  lemma {:induction false} LessTotal(a: string, b: string)
    requires a != b
    ensures Less(a, b) || Less(b, a)
  {
    if |a| > 0 && |b| > 0 && a[0] == b[0] {
      assert a == [a[0]] + a[1..];
      assert b == [b[0]] + b[1..];
      LessTotal(a[1..], b[1..]);
    }
  }

  lemma {:induction false} LessAsymmetric(a: string, b: string)
    requires Less(a, b)
    ensures !Less(b, a)
  {
    if |a| > 0 && |b| > 0 && a[0] == b[0] {
      LessAsymmetric(a[1..], b[1..]);
    }
  }

  /** "not greater than" chains: if y is not below x and z is not below y, z is not below x. */
  lemma NotLessTransitive(x: string, y: string, z: string)
    requires !Less(y, x) && !Less(z, y)
    ensures !Less(z, x)
  {
    if Less(z, x) {
      if x != y { LessTotal(x, y); }
      if y != z { LessTotal(y, z); }
      if x != y && y != z {
        LessTransitive(x, y, z);
        LessAsymmetric(x, z);
      } else if x != y {
        LessAsymmetric(x, y);
      } else if y != z {
        LessAsymmetric(y, z);
      } else {
        LessIrreflexive(x);
      }
    }
  }
}

=== FILE: workflow.dfy ===
/**
 * How the components meet over the shared list of applications: the form
 * adds to it, the payment form and the admin panel change statuses in it,
 * and the admin figures read it.
 */
module Workflow {
  import opened Records
  import LoanForm
  import Admin
  import Payment
  import Numeric
  import opened Wrappers

  /**
   * A submitted application shows up as one more pending application on an
   * admin dashboard opened after the submission (one already open keeps the
   * list it read; see `StatusChangeDropsLaterSubmission`).
   */
  lemma {:induction false} SubmitAddsPending(st: LoanForm.FormState, apps: seq<Application>, now: nat, isoDate: string)
    requires LoanForm.Step2Complete(st.data)
    ensures var r := LoanForm.HandleSubmit(st, Apps(apps), now, isoDate);
      var panel := Admin.Mount(Some("true"), r.stored);
      && r.stored.Apps?
      && Admin.ComputeStats(panel.apps).total == Admin.ComputeStats(apps).total + 1
      && Admin.ComputeStats(panel.apps).pending == Admin.ComputeStats(apps).pending + 1
      && Admin.ComputeStats(panel.apps).approved == Admin.ComputeStats(apps).approved
      && Admin.ComputeStats(panel.apps).disbursed == Admin.ComputeStats(apps).disbursed
  {
    var r := LoanForm.HandleSubmit(st, Apps(apps), now, isoDate);
    var a := LoanForm.NewApplication(st.data, now, isoDate);
    assert r.stored == Apps([a] + apps);
    assert Admin.Mount(Some("true"), r.stored).apps == [a] + apps;
    Admin.PrependPendingStats(a, apps);
  }

  /**
   * The admin panel never re-reads storage once open: a status change made
   * in a panel opened before an application was submitted writes the
   * panel's old list back, and the new application is gone from storage.
   */
  lemma StatusChangeDropsLaterSubmission(apps: seq<Application>, st: LoanForm.FormState, now: nat, isoDate: string,
                                         id: string, s: Status)
    requires LoanForm.Step2Complete(st.data)
    requires forall a :: a in apps ==> a.id != Numeric.Decimal(now)
    ensures var panel := Admin.Mount(Some("true"), Apps(apps));
      var submitted := LoanForm.HandleSubmit(st, Apps(apps), now, isoDate);
      var saved := Admin.ChangeStatus(panel, submitted.stored, id, s);
      && submitted.stored.Apps?
      && LoanForm.NewApplication(st.data, now, isoDate) in submitted.stored.apps
      && saved.stored.Apps?
      && forall a :: a in saved.stored.apps ==> a.id != Numeric.Decimal(now)
  {
    var panel := Admin.Mount(Some("true"), Apps(apps));
    var submitted := LoanForm.HandleSubmit(st, Apps(apps), now, isoDate);
    assert submitted.stored.apps[0] == LoanForm.NewApplication(st.data, now, isoDate);
    Admin.ChangeStatusKeepsIds(panel, submitted.stored, id, s);
  }

  /** Likewise a confirmed delete in a panel opened before the submission drops the new application. */
  lemma DeleteDropsLaterSubmission(apps: seq<Application>, st: LoanForm.FormState, now: nat, isoDate: string,
                                   id: string)
    requires LoanForm.Step2Complete(st.data)
    requires forall a :: a in apps ==> a.id != Numeric.Decimal(now)
    ensures var panel := Admin.Mount(Some("true"), Apps(apps));
      var submitted := LoanForm.HandleSubmit(st, Apps(apps), now, isoDate);
      var saved := Admin.Delete(panel, submitted.stored, id, true);
      && submitted.stored.Apps?
      && LoanForm.NewApplication(st.data, now, isoDate) in submitted.stored.apps
      && saved.stored.Apps?
      && forall a :: a in saved.stored.apps ==> a.id != Numeric.Decimal(now)
  {
    var submitted := LoanForm.HandleSubmit(st, Apps(apps), now, isoDate);
    assert submitted.stored.apps[0] == LoanForm.NewApplication(st.data, now, isoDate);
  }

  /**
   * A payment recorded while the panel is open is undone by the panel's next
   * status change on another application: storage gets the paid record back
   * with the status the panel last saw.
   */
  lemma StatusChangeUndoesLaterPayment(apps: seq<Application>, d: Payment.PaymentData, id: string, s: Status)
    requires |apps| > 0 && apps[0].status == Approved && apps[0].id != id
    requires d.name == apps[0].name && d.phone == apps[0].phone
    ensures var panel := Admin.Mount(Some("true"), Apps(apps));
      var paid := Payment.HandleSubmit(d, Apps(apps));
      var saved := Admin.ChangeStatus(panel, paid.stored, id, s);
      && paid.stored.Apps? && paid.stored.apps[0].status == Paid
      && saved.stored.Apps? && saved.stored.apps[0] == apps[0]
  {
    assert Payment.Settles(d, apps[0]);
    Payment.MarkPaidAt(d, apps);
    Admin.UpdateStatusAt(apps, id, s);
  }

  /**
   * Paying with the name and phone given on the form marks the new
   * application Paid (`Payment.SettlesIgnoresPadding` extends this to any
   * case and surrounding white space).
   */
  lemma PaymentSettlesSubmission(st: LoanForm.FormState, apps: seq<Application>, now: nat, isoDate: string,
                                 d: Payment.PaymentData)
    requires LoanForm.Step2Complete(st.data)
    requires d.name == st.data.name && d.phone == st.data.phone
    ensures var r := LoanForm.HandleSubmit(st, Apps(apps), now, isoDate);
      var paid := Payment.HandleSubmit(d, r.stored);
      && paid.stored.Apps?
      && |paid.stored.apps| == |apps| + 1
      && paid.stored.apps[0].status == Paid
      && paid.stored.apps[0].id == LoanForm.NewApplication(st.data, now, isoDate).id
  {
    var r := LoanForm.HandleSubmit(st, Apps(apps), now, isoDate);
    assert Payment.Settles(d, r.stored.apps[0]);
  }

  /**
   * A payment that settles no pending application, only approved ones,
   * leaves "Total Disbursed" as it was.
   */
  lemma {:induction false} PaymentOnApprovedKeepsDisbursed(d: Payment.PaymentData, apps: seq<Application>)
    requires forall a :: a in apps && Payment.Settles(d, a) ==> a.status == Approved
    ensures Admin.Disbursed(Payment.MarkPaid(d, apps)) == Admin.Disbursed(apps)
    decreases |apps|
  {
    if |apps| > 0 {
      assert apps[0] in apps;
      PaymentOnApprovedKeepsDisbursed(d, apps[1..]);
    }
  }

  /** The payment form and the admin's "Mark Paid" agree on an approved application. */
  lemma {:induction false} PaymentMatchesAdminMarkPaid(d: Payment.PaymentData, apps: seq<Application>, id: string)
    requires forall a :: a in apps ==> (Payment.Settles(d, a) <==> a.id == id)
    requires forall a :: a in apps && a.id == id ==> a.status == Approved
    ensures Payment.MarkPaid(d, apps) == Admin.UpdateStatus(apps, id, Paid)
    decreases |apps|
  {
    if |apps| > 0 {
      assert apps[0] in apps;
      PaymentMatchesAdminMarkPaid(d, apps[1..], id);
    }
  }
}

=== FILE: wrappers.dfy ===
/** Optional values: the model's stand-in for JavaScript's `null`/`undefined`. */
module Wrappers {

  datatype Option<+T> = None | Some(value: T) {

    /** The wrapped value, or `default` when there is none. */
    function GetOr(default: T): T {
      match this
      case Some(v) => v
      case None => default
    }
  }
}
